=== FILE: README.md ===
# Cordova ZIP plugin: a verified model of XZipExt

The Android side of the plugin (`XZipExt`) offers three commands to the
JavaScript layer:

- `zip`: compress one file or directory into an archive;
- `zipFiles`: compress several files or directories into one archive;
- `unzip`: extract an archive below a target directory.

This project models the code that does the work:

- the argument checks;
- the depth-first walk that `compressDir`/`writeToZip` write into a
  `ZipOutputStream`;
- the extraction loop of `unzipFileFromStream` with its `mkdirs` and
  `FileOutputStream` calls;
- the mapping that `execute` makes from a method's return value or exception
  to the error code it reports.

It proves properties of that model, including a round trip: zipping an
intact tree and unzipping the archive rebuilds the tree below the target.

Modules:

- `Paths`: `isEmptyString`, java.io.File's view of a path string, and entry-name
  prefixes.
- `FileTree`: the tree the archiver reads.
- `Streams`: the byte and ZIP streams as classes over sequences.
- `TreeWalk`: the entries `compressDir` emits, as a function of the tree.
- `Archiver`: `zipDir`, `zipFiles(String[])`, `compressDir` and `writeToZip`
  as methods, proved equal to the functions that specify them.
- `Extractor`: the disk, `mkdirs`, and the extraction loop.
- `Commands`: `zip`, `zipFiles(JSONArray)`, `unzip`, `unzipFile` and the error
  codes of `execute`.
- `RoundTrip`: compress, then extract.
- `Errors` and `Wrappers`: the exceptions and `Option`.

How the environment is represented:

- The file system the archiver reads is a map from path strings to trees.
- Whether `new FileOutputStream(zipFile)` succeeds is a boolean parameter.
- A file that `FileInputStream` cannot open is a file node whose `readable`
  flag is false.
- A directory for which `File.list()` returns null has `listable` false.
- The disk the extractor writes is a map from normalised component paths to
  objects. The set `denied` holds the paths where the system refuses
  `mkdir` or `open`.
- A Java `null` string is `None`.

## Model

| member | source | states |
|---|---|---|
| Paths.IsEmptyString | src/android/XZipExt.java:128-133 | true exactly for null or the empty string |
| Paths.BaseName | src/android/XZipExt.java:163 | File.getName(): empty exactly when the path has no component, otherwise its last component, never containing a separator |
| Paths.SplitJoin | src/android/XZipExt.java:356-362 | the components of `a + "/" + b` are those of `a` followed by those of `b`, for any strings |
| Paths.SplitTrailing | src/android/XZipExt.java:346 | a trailing separator does not change the components (`new File(targetPath + File.separator)` names targetPath) |
| Paths.SplitPrefixName | src/android/XZipExt.java:188 | an entry prefix followed by a listed name has the prefix's components plus that name |
| Streams.ByteSource.Read | src/android/XZipExt.java:216-219 | read(byte[]): -1 exactly at the end of the stream, otherwise 1 to buffer-length bytes, the next ones of the stream |
| Streams.ZipWriter.PutNextEntry | src/android/XZipExt.java:207-212 | putNextEntry appends an entry with an empty payload and opens it |
| Streams.ZipWriter.Write | src/android/XZipExt.java:218 | write(buf, 0, n) appends the first n bytes of the buffer to the open entry |
| Streams.ZipWriter.CloseEntry | src/android/XZipExt.java:222 | closeEntry ends the current entry and changes no entry |
| Streams.ZipWriter.Close | src/android/XZipExt.java:166 | close finishes the archive with its entries as written; it fails exactly when there are no entries, as Android's ZipOutputStream throws ZipException("No entries") then |
| Streams.ZipReader.GetNextEntry | src/android/XZipExt.java:353-354 | getNextEntry yields the entries in archive order, then null, with a fresh stream over the payload |
| Streams.AppendTwice | src/android/XZipExt.java:217-220 | writing two consecutive slices of a payload to an entry is writing their concatenation |
| TreeWalk.WriteEntry | src/android/XZipExt.java:203-223 | writeToZip begins exactly one entry, named at or below the entry path; it returns normally exactly for a directory or an openable file; the entry holds the file's bytes when it does, and nothing otherwise |
| TreeWalk.Walk | src/android/XZipExt.java:177-194 | compressDir begins at least one entry; when it throws, the last entry begun has an empty payload |
| TreeWalk.WalkChildren | src/android/XZipExt.java:184-192 | the loop begins an entry exactly when the listing is not empty; when it throws, the last entry begun is empty |
| TreeWalk.WalkChild | src/android/XZipExt.java:185-191 | one iteration begins at least one entry, and when it throws the last one is empty |
| TreeWalk.RootPrefix | src/android/XZipExt.java:161-164 | the root entry path is an entry-name prefix, empty exactly for a file source |
| TreeWalk.WalkSource | src/android/XZipExt.java:161-165 | a source contributes at least one entry; a file source exactly one, named File.getName() |
| TreeWalk.WalkSourceAsChild | src/android/XZipExt.java:160-165 | a source's walk from its root prefix is the walk of a child named File.getName() under the empty prefix |
| TreeWalk.SingleFileSource | src/android/XZipExt.java:161-165 | a readable single-file source becomes one entry under its bare name, with its bytes |
| TreeWalk.EmptyDirSource | src/android/XZipExt.java:181-182 | an empty or unlistable directory source becomes the one entry `name/` |
| TreeWalk.WalkOk | src/android/XZipExt.java:177-194 | the walk returns normally exactly when every file it can reach opens (unlisted directories are never entered) |
| TreeWalk.WalkChildrenOk | src/android/XZipExt.java:184-192 | the loop over a listing returns normally exactly when every child's walk does |
| TreeWalk.ChildEntriesBelow | src/android/XZipExt.java:184-192 | every entry of a child's walk is named at or below `entryPath + name`, and an entry whose name ends in a separator carries no bytes |
| TreeWalk.BelowDistinct | src/android/XZipExt.java:188 | names below two listed names of one directory can coincide only if the listed names are equal |
| TreeWalk.CountInChildren | src/android/XZipExt.java:184-192 | when every child's files open, a name below listed name `n` occurs in a directory's walk as often as in the walk of the child named `n`, and never if there is none |
| TreeWalk.FileEntryOnce | src/android/XZipExt.java:203-223 | each file of an intact tree gives exactly one entry, named by its path below the entry path, carrying its bytes |
| TreeWalk.DirEntryCount | src/android/XZipExt.java:181-182 | a directory of an intact tree gives one entry `path/` if it has no children and none otherwise |
| TreeWalk.OwnDirEntry | src/android/XZipExt.java:181-182 | a listable directory's own entry `prefix + name/` occurs once if it has no children and never otherwise |
| TreeWalk.EntryPerLeaf | src/android/XZipExt.java:177-223 | an intact tree gives as many entries as it has files and childless directories |
| TreeWalk.ListingOrder | src/android/XZipExt.java:184-192 | when every file opens, a directory's entries are its children's walks concatenated in File.list() order |
| TreeWalk.FailureStops | src/android/XZipExt.java:184-192 | once a child's walk throws, no later child is visited |
| Archiver.CheckSource | src/android/XZipExt.java:268-280 | FileNotFoundException exactly for a non-empty path naming nothing; IllegalArgumentException exactly for an empty path, or a file path equal to the archive path; never another IOException |
| Archiver.CheckZipDir | src/android/XZipExt.java:144-154 | an empty argument gives IllegalArgumentException; otherwise the result is CheckSource's: FileNotFoundException for a missing source, IllegalArgumentException for a file source whose path equals the archive path; passing means both arguments are present and the source exists |
| Archiver.CheckSources | src/android/XZipExt.java:268-280 | passes exactly when every path passes; otherwise it throws what the first failing path throws |
| Archiver.WalkSources | src/android/XZipExt.java:289-296 | when the writing loop runs to the end it has begun at least one entry per source |
| Archiver.Written | src/android/XZipExt.java:165-166 | after the stream is opened the archive exists and holds the entries begun; no exception exactly when the walk returned normally, and otherwise FileNotFoundException |
| Archiver.ZipDirRun | src/android/XZipExt.java:142-167 | no exception exactly when the archive is finished; no archive exactly when a check fails or the output cannot be created; a failed check's exception is the one thrown; once the checks pass, any exception is FileNotFoundException (from the output stream or a FileInputStream in writeToZip) |
| Archiver.ZipFilesRun | src/android/XZipExt.java:262-298 | no exception exactly when the archive is finished; no archive exactly when the archive path is empty, some path fails a check, or the output cannot be created; an empty archive path throws IllegalArgumentException, a failed check throws CheckSources' exception (the first failing path's), and once the checks pass any exception is FileNotFoundException, except that an empty path list with a creatable output throws the IOException (ZipException) of close at line 297; an empty path list never finishes an archive |
| Archiver.WriteToZip | src/android/XZipExt.java:203-223 | appends the entry WriteEntry describes; a readable file's bytes arrive in chunks of 1 to BUFFER_LEN bytes that join to its contents |
| Archiver.CopyToEntry | src/android/XZipExt.java:214-220 | the copy loop puts every byte of the input stream into the open entry, in order |
| Archiver.PassChunk | src/android/XZipExt.java:218 | one `zos.write` extends the entry by the next bytes of the file |
| Archiver.CompressDir | src/android/XZipExt.java:177-194 | the stream gains exactly the entries of Walk, and the method returns normally exactly when Walk does |
| Archiver.CompressChildren | src/android/XZipExt.java:184-192 | the loop over the listing appends the children's walks, stopping at the first throw |
| Archiver.CompressChild | src/android/XZipExt.java:185-191 | a subdirectory is recursed into with `entryPath + name + "/"`, a file written under `entryPath` |
| Archiver.ZipDir | src/android/XZipExt.java:142-167 | the method's exception and archive are those of ZipDirRun |
| Archiver.CheckAll | src/android/XZipExt.java:268-280 | the validation loop throws what CheckSources says, before any stream is opened |
| Archiver.CompressSources | src/android/XZipExt.java:289-296 | the writing loop appends each source's walk from its own root prefix, stopping at the first throw |
| Archiver.CompressSource | src/android/XZipExt.java:290-295 | one source of the writing loop appends that source's walk from its root prefix |
| Archiver.ZipFiles | src/android/XZipExt.java:262-298 | the method's exception and archive are those of ZipFilesRun |
| Archiver.ChecksPassed | src/android/XZipExt.java:268-280 | paths that pass every check all name existing sources |
| Archiver.ZipSingleFile | src/android/XZipExt.java:142-167 | zipDir of a readable file finishes an archive of the one entry named File.getName() with the file's bytes |
| Archiver.ZipDirOk | src/android/XZipExt.java:160-166 | after the checks pass and when the archive file can be created, zipDir throws exactly when some reachable file cannot be opened |
| Archiver.ZipFilesOfOne | src/android/XZipExt.java:262-298 | zipFiles of one path behaves exactly as zipDir of that path |
| Archiver.SourceOrder | src/android/XZipExt.java:289-296 | an archive written to the end holds the sources' walks in the given order, as InSourceOrder joins them head first |
| Archiver.InSourceOrderSnoc | src/android/XZipExt.java:289-296 | joining the sources' walks head first equals joining all but the last and then the last one's walk |
| Archiver.WalkSourcesOk | src/android/XZipExt.java:289-296 | zipFiles writes to the end exactly when every file reachable from every source opens |
| Archiver.ZipFilesInSourceOrder | src/android/XZipExt.java:262-298 | a finished zipFiles archive means every path existed and every reachable file opened, and its entries are the sources' walks in order |
| Extractor.Exists | src/android/XZipExt.java:347 | definition of File.exists(): the root, or a path present on the disk |
| Extractor.IsDir | src/android/XZipExt.java:372 | definition of File.isDirectory(): the root, or a path holding a directory |
| Extractor.CanMkdir | src/android/XZipExt.java:359 | definition of a successful File.mkdir(): the path is not the root, does not exist, its parent is a directory and the system does not refuse it |
| Extractor.CanOpen | src/android/XZipExt.java:372 | definition of a successful `new FileOutputStream(p)`: p is not the root and not a directory, its parent is a directory and the system does not refuse p |
| Extractor.Parent | src/android/XZipExt.java:365 | File.getParentFile(): the path without its last component |
| Extractor.Mkdirs | src/android/XZipExt.java:348 | File.mkdirs(): the disk only gains directories, each on the way to the path; nothing present changes |
| Extractor.MkdirsMakesDir | src/android/XZipExt.java:358-360 | when no prefix is refused or is a file, mkdirs leaves the path a directory |
| Extractor.MkdirsSound | src/android/XZipExt.java:366-368 | mkdirs keeps every object's parent a directory |
| Extractor.EntryUnderTarget | src/android/XZipExt.java:356-357 | the entry's path is the target's components followed by the entry name's |
| Extractor.ExtractEntry | src/android/XZipExt.java:354-384 | a directory entry never fails; a file entry goes through exactly when its path has a parent and, once that parent is mkdirs'ed, the open succeeds (FileOpens); when it goes through its payload is at its path under a directory; every other path keeps its object; directories stay directories; every path added lies on the way to the entry's path |
| Extractor.ExtractAll | src/android/XZipExt.java:353-385 | the extraction loop removes nothing from the disk, and fails only on a non-empty archive |
| Extractor.UnzipRun | src/android/XZipExt.java:344-389 | unzipFileFromStream removes nothing from the disk |
| Extractor.ExtractAllOk | src/android/XZipExt.java:353-385 | the loop goes through exactly when every file entry opens on the disk the entries before it left |
| Extractor.UnzipRunOk | src/android/XZipExt.java:344-389 | unzipFileFromStream returns true exactly when, after the target is made, every file entry opens in turn |
| Extractor.PrefixOk | src/android/XZipExt.java:353-385 | a replay that went through went through on every prefix of the archive |
| Extractor.ExtractFailureStops | src/android/XZipExt.java:370-377 | after a failed open no later entry is extracted |
| Extractor.FailureKeepsEarlier | src/android/XZipExt.java:370-377 | a failed replay failed on a file entry after all earlier entries went through, and keeps what they wrote |
| Extractor.LastWriteWins | src/android/XZipExt.java:362-383 | after a successful replay, a file entry's path holds its payload unless a later file entry has the same path |
| Extractor.DirsPersist | src/android/XZipExt.java:353-385 | directories stay directories through a replay |
| Extractor.ExtractSound | src/android/XZipExt.java:353-385 | a replay keeps every object's parent a directory |
| Extractor.DirEntryMakesDir | src/android/XZipExt.java:355-360 | with nothing in the way, a directory entry leaves its path a directory |
| Extractor.TargetMadeFirst | src/android/XZipExt.java:346-349 | with nothing in the way, the target directory is made before any entry and survives the replay |
| Extractor.FileSystem.FileExists | src/android/XZipExt.java:358 | exists() answers as Exists on the current disk |
| Extractor.FileSystem.MakeDirs | src/android/XZipExt.java:348 | the file system changes as Mkdirs says |
| Extractor.FileSystem.OpenForWrite | src/android/XZipExt.java:370-377 | opening succeeds exactly when CanOpen holds, and truncates the file |
| Extractor.FileSystem.Append | src/android/XZipExt.java:381 | fos.write appends the bytes to the opened file |
| Extractor.CopyEntry | src/android/XZipExt.java:378-382 | the copy loop leaves the opened file holding exactly the entry's payload |
| Extractor.ExtractOne | src/android/XZipExt.java:354-384 | one iteration changes the disk and returns as ExtractEntry says |
| Extractor.UnzipFileFromStream | src/android/XZipExt.java:344-389 | the disk left and the result are those of UnzipRun: target made first, then every entry in archive order until a failed open |
| Commands.ErrorCodeFor | src/android/XZipExt.java:61-112 | NONE exactly for an unknown action or a true result; FILE_PATH_ERROR exactly for a false result; FILE_NOT_EXIST only for zip's FileNotFoundException; COMPRESS_FILE_ERROR for every other exception; never UNZIP_FILE_ERROR or FILE_TYPE_ERROR |
| Commands.OutcomeOf | src/android/XZipExt.java:124-125 | a method returns true exactly when the run threw nothing, and otherwise throws what the run threw |
| Commands.ZipCommand | src/android/XZipExt.java:122-126 | zip never returns false; it returns true exactly when the archive is finished |
| Commands.Screen | src/android/XZipExt.java:236-246 | the screening loop passes exactly when every path is present and exists; otherwise it returns false or throws FileNotFoundException |
| Commands.ScreenFalse | src/android/XZipExt.java:236-246 | the screening loop returns false exactly at a null path whose predecessors all exist |
| Commands.ZipFilesCommand | src/android/XZipExt.java:233-253 | true exactly when the archive is finished, whose entries are then the sources' walks in order; false exactly at a null path after existing ones, or for a null destination after all paths exist |
| Commands.ScreenPaths | src/android/XZipExt.java:236-246 | the loop's result is Screen's |
| Commands.ZipFilesFromJson | src/android/XZipExt.java:233-253 | the method's result and archive are ZipFilesCommand's |
| Commands.UnzipFileRun | src/android/XZipExt.java:326-334 | an archive that cannot be opened gives FileNotFoundException and no change; otherwise the disk is UnzipRun's, and a failed replay gives IOException; never false |
| Commands.UnzipCommand | src/android/XZipExt.java:308-317 | false exactly for a null argument, with the disk unchanged |
| Commands.UnzipFile | src/android/XZipExt.java:326-334 | the method's outcome and disk are UnzipFileRun's |
| Commands.Unzip | src/android/XZipExt.java:308-317 | the method's outcome and disk are UnzipCommand's |
| Commands.ZipCodes | src/android/XZipExt.java:64-78 | zip never reports FILE_PATH_ERROR, reports NONE exactly for a finished archive, and FILE_NOT_EXIST for a missing source and, once the checks pass, for a tree holding a file that cannot be opened |
| Commands.ZipFilesCodes | src/android/XZipExt.java:79-93 | at the first path that is null or names nothing, every earlier one existing, zipFiles reports FILE_PATH_ERROR for a null path and COMPRESS_FILE_ERROR for a missing one |
| Commands.ZipFilesNoEntries | src/android/XZipExt.java:236-297 | zipFiles of an empty array with a destination reports COMPRESS_FILE_ERROR and finishes no archive, because close throws for an archive without entries |
| Commands.ScreenAt | src/android/XZipExt.java:236-246 | the screening loop stops at the first path that is null or names nothing |
| Commands.UnzipCodes | src/android/XZipExt.java:94-108 | unzip reports FILE_PATH_ERROR exactly for a null argument, NONE exactly for a replay that went through, and COMPRESS_FILE_ERROR otherwise |
| RoundTrip.MkdirsBelow | src/android/XZipExt.java:358-360 | mkdirs of a directory of the source tree below target/name makes it and changes nothing outside target/name |
| RoundTrip.FileStep | src/android/XZipExt.java:362-383 | a file entry of the tree writes the file's bytes at target/name/path and changes nothing outside target/name |
| RoundTrip.ReplayWalk | src/android/XZipExt.java:177-194 | the entries of the walk of any intact subtree, replayed, rebuild that subtree at its place below target/name |
| RoundTrip.ReplayChildren | src/android/XZipExt.java:184-192 | the walks of a directory's first j children, replayed, rebuild each of those children |
| RoundTrip.RoundTrip | src/android/XZipExt.java:353-385 | replaying the archive of a source whose name is neither `.` nor `..` below a target with nothing yet at target/name goes through; target/name then holds exactly the source tree, and the rest of the disk is unchanged |
| RoundTrip.ZipThenUnzip | src/android/XZipExt.java:344-389 | when zipDir finishes the archive of an intact source whose name is neither `.` nor `..`, unzipFileFromStream of it goes through and rebuilds the source at target/name. This holds when the target is a directory, and also when mkdirs can make it. Outside target/name nothing present changes, and the only paths added are directories on the way to the target. An existing target gets no addition outside target/name |

## Left out

- Compression itself: DEFLATE, CRCs and the ZIP container format. An archive is the sequence of its entries, and the byte streams are sequences.
- The ZipException `ZipOutputStream.putNextEntry` throws for a duplicate entry name. This is library behaviour, not the plugin's, so the model keeps every entry in order.
- The NullPointerException when the archive path has no parent (`getParentFile()` at lines 156-157 and 283-284). `execute` does not catch it, so it escapes the plugin; the model has no such outcome.
- The effect of the `mkdirs` of the archive's parent directory (lines 158 and 285) on the file system. Only whether `new FileOutputStream(zipFile)` then succeeds is modelled, as the `canCreate` parameter. Its failure is a FileNotFoundException.
- The archive file itself is not part of the source file system the walk reads. Two behaviours of XZipExt are therefore not captured. Zipping a directory into an archive inside it makes the walk list and read the half-written archive. A file source named by a different but equivalent string (`/a//x` against the archive path `/a/x`) passes the equality check at line 152 and is truncated by the open at line 160 before it is read.
- Extractor.ExtractOne: a file entry whose path normalises to the root makes `getParentFile()` return null, and XZipExt then throws a NullPointerException. The model returns false there, as for a failed open.
- Relative paths, `.` and `..`, and the working directory. Paths are absolute component lists. Entry names that climb out of the target are therefore not modelled (XZipExt does not check for them).
- Read errors in the middle of a stream, and malformed or truncated archives. The stream model's `read` always succeeds.
- Write errors: `zos.write`, `closeEntry` and `close` (lines 218, 222, 166, 297) and `fos.write` and `fos.close` (lines 381, 383) never throw in the model. The one exception modelled is close on an archive without entries.
- Closing of streams, and the streams XZipExt leaks on an exception.
- JSON parsing. `JSONArray.getString` is modelled as giving a present or a null string, and the null branch at lines 239-241 is kept as written. org.json itself never returns null there.
- `callbackContext` calls. `execute` always calls `error(code)` at its end, even after `success()`. The model gives the code it reports, not the sequence of callbacks.
- Log.d, printStackTrace, threads, and special files such as links and devices.
- RoundTrip.RoundTrip: requires the source tree to be well formed (distinct, separator-free listed names other than `.` and `..`) and intact (every file opens, every directory lists), and the source's own name File.getName() to be neither `.` nor `..`: such a source gives entries `./x` or `../x`, which the system resolves onto or above the target. It also requires the disk to be sound (every object's parent is a directory), that nothing at or below target/name is on the disk or refused, and that the target is a directory. RoundTrip.ZipThenUnzip has the same requirements, except that the target may also be a path mkdirs can make.
- Archiver.CheckSource: the source map may hold the key `""`, although `new File("").exists()` is false. For that key the model passes the existence test and then throws IllegalArgumentException where XZipExt throws FileNotFoundException. Both give the same error code.
- Paths.Split: models java.io.File normalisation for `/` only. Doubled and trailing separators are dropped, as on Android.

=== FILE: archiver.dfy ===
/**
 The archiver: zipDir and zipFiles(String[]) with their argument checks, and
 compressDir / writeToZip writing into a ZipOutputStream.
 */
module Archiver {
  import opened Wrappers
  import opened Paths
  import opened FileTree
  import opened Streams
  import opened TreeWalk
  import opened Errors

  /** The archive file at the destination path after a call. */
  datatype ArchiveFile =
    | NotCreated                      // no output stream was opened
    | Finished(entries: seq<Entry>)   // the stream was closed
    | Unfinished(entries: seq<Entry>) // an exception left it half written

  /** How a call ended: the exception it threw, if any, and the archive it left. */
  datatype Run = Run(thrown: Option<Failure>, archive: ArchiveFile)

  /** The caller's view of the file system: what each path string names. */
  type Sources = map<string, Node>

  /** The three checks made on one source path against the archive path. */
  function CheckSource(fs: Sources, path: JString, zipFileName: string): (r: Option<Failure>)
    ensures r != Some(IOFailure)
    ensures r == Some(FileNotFound) <==> !IsEmptyString(path) && path.value !in fs
    ensures r == Some(IllegalArgument) <==>
      IsEmptyString(path) || (path.value in fs && fs[path.value].File? && zipFileName == path.value)
  {
    if IsEmptyString(path) then Some(IllegalArgument)
    else if path.value !in fs then Some(FileNotFound)
    else if fs[path.value].File? && zipFileName == path.value then Some(IllegalArgument)
    else None
  }

  /** The checks of zipDir, in its order. */
  function CheckZipDir(fs: Sources, srcFilePath: JString, zipFileName: JString): (r: Option<Failure>)
    ensures r == None ==> srcFilePath.Some? && zipFileName.Some? && srcFilePath.value in fs
    ensures IsEmptyString(srcFilePath) || IsEmptyString(zipFileName) ==> r == Some(IllegalArgument)
    ensures !IsEmptyString(srcFilePath) && !IsEmptyString(zipFileName) ==> r == CheckSource(fs, srcFilePath, zipFileName.value)
  {
    if IsEmptyString(srcFilePath) || IsEmptyString(zipFileName) then Some(IllegalArgument)
    else CheckSource(fs, srcFilePath, zipFileName.value)
  }

  /** The checks of zipFiles(String[]) over the sources: the first failing path decides. */
  function CheckSources(fs: Sources, paths: seq<JString>, zipFileName: string): (r: Option<Failure>)
    ensures r == None <==> forall i :: 0 <= i < |paths| ==> CheckSource(fs, paths[i], zipFileName) == None
    ensures r != None ==> exists i :: (0 <= i < |paths| && r == CheckSource(fs, paths[i], zipFileName) &&
      forall j :: 0 <= j < i ==> CheckSource(fs, paths[j], zipFileName) == None)
    decreases |paths|
  {
    if paths == [] then None
    else
      var c := CheckSource(fs, paths[0], zipFileName);
      if c != None then c else CheckSources(fs, paths[1..], zipFileName)
  }

  /** Paths that passed the checks name existing sources. */
  predicate AllExist(fs: Sources, paths: seq<JString>) {
    forall i :: 0 <= i < |paths| ==> paths[i].Some? && paths[i].value in fs
  }

  /** The sources walked one after the other into the same stream. */
  function WalkSources(fs: Sources, paths: seq<JString>): (r: Walked)
    requires AllExist(fs, paths)
    ensures r.ok ==> |r.entries| >= |paths|
  {
    if paths == [] then Walked([], true)
    else
      var last := paths[|paths| - 1].value;
      Then(WalkSources(fs, paths[..|paths| - 1]), WalkSource(last, fs[last]))
  }

  /** The end of a call once the output stream is open. */
  function Written(w: Walked): (r: Run)
    ensures r.thrown == None <==> w.ok
    ensures r.thrown != None ==> r.thrown == Some(FileNotFound)
    ensures r.archive != NotCreated && r.archive.entries == w.entries
  {
    if w.ok then Run(None, Finished(w.entries)) else Run(Some(FileNotFound), Unfinished(w.entries))
  }

  /**
   zipDir. `canCreate` says whether `new FileOutputStream(zipFile)` succeeds
   (it throws FileNotFoundException otherwise).
   */
  function ZipDirRun(fs: Sources, srcFilePath: JString, zipFileName: JString, canCreate: bool): (r: Run)
    ensures r.thrown == None <==> r.archive.Finished?
    ensures r.archive == NotCreated <==> CheckZipDir(fs, srcFilePath, zipFileName) != None || !canCreate
    ensures CheckZipDir(fs, srcFilePath, zipFileName) != None ==> r.thrown == CheckZipDir(fs, srcFilePath, zipFileName)
    ensures CheckZipDir(fs, srcFilePath, zipFileName) == None && r.thrown != None ==> r.thrown == Some(FileNotFound)
  {
    var invalid := CheckZipDir(fs, srcFilePath, zipFileName);
    if invalid != None then Run(invalid, NotCreated)
    else if !canCreate then Run(Some(FileNotFound), NotCreated)
    else Written(WalkSource(srcFilePath.value, fs[srcFilePath.value]))
  }

  /** zipFiles(String[], String). */
  function ZipFilesRun(fs: Sources, srcFilePaths: seq<JString>, zipFileName: JString, canCreate: bool): (r: Run)
    ensures r.thrown == None <==> r.archive.Finished?
    ensures r.archive == NotCreated <==>
      || IsEmptyString(zipFileName)
      || (exists i :: 0 <= i < |srcFilePaths| && CheckSource(fs, srcFilePaths[i], zipFileName.value) != None)
      || !canCreate
    ensures IsEmptyString(zipFileName) ==> r.thrown == Some(IllegalArgument)
    ensures !IsEmptyString(zipFileName) && CheckSources(fs, srcFilePaths, zipFileName.value) != None ==>
      r.thrown == CheckSources(fs, srcFilePaths, zipFileName.value)
    ensures !IsEmptyString(zipFileName) && CheckSources(fs, srcFilePaths, zipFileName.value) == None && r.thrown != None ==>
      r.thrown == if srcFilePaths == [] && canCreate then Some(IOFailure) else Some(FileNotFound)
    ensures srcFilePaths == [] ==> r.thrown != None
  {
    if IsEmptyString(zipFileName) then Run(Some(IllegalArgument), NotCreated)
    else
      var invalid := CheckSources(fs, srcFilePaths, zipFileName.value);
      if invalid != None then Run(invalid, NotCreated)
      else if !canCreate then Run(Some(FileNotFound), NotCreated)
      else if srcFilePaths == [] then Run(Some(IOFailure), Unfinished([]))
      else Written(WalkSources(fs, srcFilePaths))
  }

  // ---------------------------------------------------------------------
  // The stream-writing code

  /**
   writeToZip: begins the entry, then copies the file through a BUFFER_LEN
   buffer until read returns -1. `chunks` are the pieces written, in order.
   */
  method WriteToZip(node: Node, name: string, zos: ZipWriter, entryPath: string)
    returns (ok: bool, ghost chunks: seq<Bytes>)
    requires zos.Valid()
    modifies zos
    ensures zos.Valid()
    ensures zos.entries == old(zos.entries) + WriteEntry(node, name, entryPath).entries
    ensures ok == WriteEntry(node, name, entryPath).ok
    ensures node.File? && ok ==> Flatten(chunks) == node.data
    ensures forall i :: 0 <= i < |chunks| ==> 0 < |chunks[i]| <= BufferLen
  {
    chunks := [];
    if node.Dir? {
      zos.PutNextEntry(entryPath);
      return true, chunks;
    }
    zos.PutNextEntry(entryPath + name);
    if !node.readable {
      // new FileInputStream(srcFile) throws FileNotFoundException
      return false, chunks;
    }
    var fis := new ByteSource(node.data);
    chunks := CopyToEntry(fis, zos);
    AppendToEmpty(old(zos.entries), entryPath + name, node.data);
    zos.CloseEntry();
    ok := true;
  }

  /** The copy loop of writeToZip: every byte of `fis` goes to the current entry, a buffer at a time. */
  method CopyToEntry(fis: ByteSource, zos: ZipWriter) returns (ghost chunks: seq<Bytes>)
    requires fis.Valid() && fis.pos == 0 && zos.Valid() && zos.open
    modifies fis, zos
    ensures zos.Valid() && zos.open
    ensures zos.entries == AppendToLast(old(zos.entries), fis.data)
    ensures Flatten(chunks) == fis.data
    ensures forall i :: 0 <= i < |chunks| ==> 0 < |chunks[i]| <= BufferLen
  {
    chunks := [];
    var readBuffer := new Byte[BufferLen];
    var bytesIn := fis.Read(readBuffer);
    ghost var written: nat := 0;
    assert fis.data[..0] == [];
    AppendNothing(old(zos.entries));
    while bytesIn != -1
      invariant fis.Valid() && zos.Valid() && zos.open
      invariant readBuffer.Length == BufferLen
      invariant written <= fis.pos
      invariant bytesIn == -1 ==> written == fis.pos == |fis.data|
      invariant bytesIn != -1 ==>
        && 0 < bytesIn <= BufferLen && written + bytesIn == fis.pos
        && readBuffer[..bytesIn] == fis.data[written..fis.pos]
      invariant Flatten(chunks) == fis.data[..written]
      invariant forall i :: 0 <= i < |chunks| ==> 0 < |chunks[i]| <= BufferLen
      invariant zos.entries == AppendToLast(old(zos.entries), fis.data[..written])
      decreases |fis.data| - fis.pos + if bytesIn == -1 then 0 else 1
    {
      PassChunk(zos, readBuffer, bytesIn, old(zos.entries), fis.data, written);
      FlattenSnoc(chunks, readBuffer[..bytesIn]);
      assert fis.data[..written + bytesIn] == fis.data[..written] + fis.data[written..written + bytesIn];
      chunks := chunks + [readBuffer[..bytesIn]];
      written := written + bytesIn;
      bytesIn := fis.Read(readBuffer);
    }
    assert fis.data[..written] == fis.data;
  }

  /** zos.write(readBuffer, 0, bytesIn): the next `n` bytes of `data`, past the first `w`, go to the current entry. */
  method PassChunk(zos: ZipWriter, buf: array<Byte>, n: int, ghost es: seq<Entry>, ghost data: Bytes, ghost w: nat)
    requires zos.Valid() && zos.open && 0 < n <= buf.Length && w + n <= |data|
    requires buf[..n] == data[w..w + n]
    requires es != [] && zos.entries == AppendToLast(es, data[..w])
    modifies zos
    ensures zos.Valid() && zos.open && zos.entries == AppendToLast(es, data[..w + n])
  {
    zos.Write(buf, 0, n);
    assert buf[0..n] == data[w..w + n];
    AppendTwice(es, data, w, n);
  }

  /** compressDir: a file or childless directory is written; otherwise each listed child is. */
  method CompressDir(node: Node, name: string, zos: ZipWriter, entryPath: string) returns (ok: bool)
    requires zos.Valid()
    modifies zos
    ensures zos.Valid()
    ensures zos.entries == old(zos.entries) + Walk(node, name, entryPath).entries
    ensures ok == Walk(node, name, entryPath).ok
    decreases node, 1
  {
    if node.File? || !node.listable || |node.children| == 0 {
      ghost var chunks;
      ok, chunks := WriteToZip(node, name, zos, entryPath);
    } else {
      ok := CompressChildren(node.children, zos, entryPath);
    }
  }

  /** The for-loop of compressDir over the listing `dirList`. */
  method CompressChildren(dirList: seq<Child>, zos: ZipWriter, entryPath: string) returns (ok: bool)
    requires zos.Valid()
    modifies zos
    ensures zos.Valid()
    ensures zos.entries == old(zos.entries) + WalkChildren(dirList, entryPath).entries
    ensures ok == WalkChildren(dirList, entryPath).ok
    decreases dirList, 0
  {
    var i := 0;
    while i < |dirList|
      invariant 0 <= i <= |dirList|
      invariant zos.Valid()
      invariant zos.entries == old(zos.entries) + WalkChildren(dirList[..i], entryPath).entries
      invariant WalkChildren(dirList[..i], entryPath).ok
    {
      WalkChildrenNext(dirList, entryPath, i);
      ghost var before := zos.entries;
      ok := CompressChild(dirList[i], zos, entryPath);
      ConcatAssoc(old(zos.entries), WalkChildren(dirList[..i], entryPath).entries, WalkChild(dirList[i], entryPath).entries);
      if !ok {
        FailureStops(dirList, entryPath, i + 1);
        return;
      }
      i := i + 1;
    }
    assert dirList[..i] == dirList;
    ok := true;
  }

  /** One iteration of compressDir's loop: a subdirectory is recursed into, a file written. */
  method CompressChild(f: Child, zos: ZipWriter, entryPath: string) returns (ok: bool)
    requires zos.Valid()
    modifies zos
    ensures zos.Valid()
    ensures zos.entries == old(zos.entries) + WalkChild(f, entryPath).entries
    ensures ok == WalkChild(f, entryPath).ok
    decreases f, 2
  {
    if f.node.Dir? {
      ok := CompressDir(f.node, f.name, zos, entryPath + f.name + [Separator]);
    } else {
      ghost var chunks;
      ok, chunks := WriteToZip(f.node, f.name, zos, entryPath);
    }
  }

  /** zipDir: the checks, then one stream and one walk from the root prefix. */
  method ZipDir(fs: Sources, srcFilePath: JString, zipFileName: JString, canCreate: bool) returns (r: Run)
    ensures r == ZipDirRun(fs, srcFilePath, zipFileName, canCreate)
  {
    if IsEmptyString(srcFilePath) || IsEmptyString(zipFileName) {
      return Run(Some(IllegalArgument), NotCreated);
    }
    var src := srcFilePath.value;
    if src !in fs {
      return Run(Some(FileNotFound), NotCreated);
    }
    var srcFile := fs[src];
    if srcFile.File? && zipFileName.value == src {
      return Run(Some(IllegalArgument), NotCreated);
    }
    if !canCreate {
      return Run(Some(FileNotFound), NotCreated);
    }
    var zos := new ZipWriter();
    var entryPath := "";
    if srcFile.Dir? {
      entryPath := BaseName(src) + [Separator];
    }
    var ok := CompressDir(srcFile, BaseName(src), zos, entryPath);
    ghost var w := WalkSource(src, srcFile);
    assert w == Walk(srcFile, BaseName(src), entryPath);
    assert zos.entries == w.entries && ok == w.ok;
    if !ok {
      assert ZipDirRun(fs, srcFilePath, zipFileName, canCreate) == Written(w);
      return Run(Some(FileNotFound), Unfinished(zos.entries));
    }
    var closed := zos.Close();
    assert closed;  // the walk of a source begins at least one entry
    r := Run(None, Finished(zos.entries));
  }

  /** With no failure before index i, the checks over all paths are those from i on. */
  lemma {:induction false} CheckSourcesFrom(fs: Sources, paths: seq<JString>, zipFileName: string, i: nat)
    requires i <= |paths|
    requires forall j :: 0 <= j < i ==> CheckSource(fs, paths[j], zipFileName) == None
    ensures CheckSources(fs, paths, zipFileName) == CheckSources(fs, paths[i..], zipFileName)
    decreases i
  {
    if i > 0 {
      assert paths[1..][i - 1..] == paths[i..];
      CheckSourcesFrom(fs, paths[1..], zipFileName, i - 1);
    }
  }

  /** Once a source's walk throws, the later sources are not walked. */
  lemma {:induction false} SourceFailureStops(fs: Sources, paths: seq<JString>, j: nat)
    requires j <= |paths| && AllExist(fs, paths)
    requires !WalkSources(fs, paths[..j]).ok
    ensures WalkSources(fs, paths) == WalkSources(fs, paths[..j])
    decreases |paths| - j
  {
    if j < |paths| {
      assert paths[..j + 1][..j] == paths[..j];
      SourceFailureStops(fs, paths, j + 1);
    } else {
      assert paths[..j] == paths;
    }
  }

  /** The validation loop of zipFiles(String[]): the exception of the first path that fails a check. */
  method CheckAll(fs: Sources, srcFilePaths: seq<JString>, dest: string) returns (invalid: Option<Failure>)
    ensures invalid == CheckSources(fs, srcFilePaths, dest)
  {
    var i := 0;
    while i < |srcFilePaths|
      invariant 0 <= i <= |srcFilePaths|
      invariant forall j :: 0 <= j < i ==> CheckSource(fs, srcFilePaths[j], dest) == None
    {
      var path := srcFilePaths[i];
      CheckSourcesFrom(fs, srcFilePaths, dest, i);
      if IsEmptyString(path) {
        return Some(IllegalArgument);
      }
      if path.value !in fs {
        return Some(FileNotFound);
      }
      if fs[path.value].File? && dest == path.value {
        return Some(IllegalArgument);
      }
      i := i + 1;
    }
    return None;
  }

  /**
   zipFiles(String[]): every path is checked before the one stream is opened;
   then each source is walked from its own root prefix, in the given order.
   */
  method ZipFiles(fs: Sources, srcFilePaths: seq<JString>, zipFileName: JString, canCreate: bool) returns (r: Run)
    ensures r == ZipFilesRun(fs, srcFilePaths, zipFileName, canCreate)
  {
    if IsEmptyString(zipFileName) {
      return Run(Some(IllegalArgument), NotCreated);
    }
    var dest := zipFileName.value;
    var invalid := CheckAll(fs, srcFilePaths, dest);
    if invalid != None {
      return Run(invalid, NotCreated);
    }
    if !canCreate {
      return Run(Some(FileNotFound), NotCreated);
    }
    ChecksPassed(fs, srcFilePaths, dest);
    ghost var w := WalkSources(fs, srcFilePaths);
    assert srcFilePaths != [] ==> ZipFilesRun(fs, srcFilePaths, zipFileName, canCreate) == Written(w);
    var zos := new ZipWriter();
    var ok := CompressSources(fs, srcFilePaths, zos);
    assert zos.entries == w.entries by {
      assert [] + w.entries == w.entries;
    }
    if !ok {
      return Run(Some(FileNotFound), Unfinished(zos.entries));
    }
    var closed := zos.Close();
    if !closed {
      return Run(Some(IOFailure), Unfinished(zos.entries));
    }
    r := Run(None, Finished(zos.entries));
  }

  /** Paths that pass every check name existing sources. */
  lemma ChecksPassed(fs: Sources, paths: seq<JString>, zipFileName: string)
    requires CheckSources(fs, paths, zipFileName) == None
    ensures AllExist(fs, paths)
  {
    forall i | 0 <= i < |paths|
      ensures paths[i].Some? && paths[i].value in fs
    {
      assert CheckSource(fs, paths[i], zipFileName) == None;
    }
  }

  /** The writing loop of zipFiles(String[]): each source from its own root prefix, stopping at the first throw. */
  method CompressSources(fs: Sources, srcFilePaths: seq<JString>, zos: ZipWriter) returns (ok: bool)
    requires AllExist(fs, srcFilePaths) && zos.Valid()
    modifies zos
    ensures zos.Valid()
    ensures zos.entries == old(zos.entries) + WalkSources(fs, srcFilePaths).entries
    ensures ok == WalkSources(fs, srcFilePaths).ok
  {
    var k := 0;
    assert old(zos.entries) + [] == old(zos.entries);
    while k < |srcFilePaths|
      invariant 0 <= k <= |srcFilePaths|
      invariant AllExist(fs, srcFilePaths[..k])
      invariant zos.Valid()
      invariant zos.entries == old(zos.entries) + WalkSources(fs, srcFilePaths[..k]).entries
      invariant WalkSources(fs, srcFilePaths[..k]).ok
    {
      var path := srcFilePaths[k].value;
      WalkSourcesNext(fs, srcFilePaths, k);
      ok := CompressSource(path, fs[path], zos);
      ConcatAssoc(old(zos.entries), WalkSources(fs, srcFilePaths[..k]).entries, WalkSource(path, fs[path]).entries);
      if !ok {
        SourceFailureStops(fs, srcFilePaths, k + 1);
        return;
      }
      k := k + 1;
    }
    assert srcFilePaths[..k] == srcFilePaths;
    ok := true;
  }

  /** One source of zipFiles(String[]): its root prefix, then compressDir from there. */
  method CompressSource(path: string, entry: Node, zos: ZipWriter) returns (ok: bool)
    requires zos.Valid()
    modifies zos
    ensures zos.Valid()
    ensures zos.entries == old(zos.entries) + WalkSource(path, entry).entries
    ensures ok == WalkSource(path, entry).ok
  {
    var entryPath := "";
    if entry.Dir? {
      entryPath := BaseName(path) + [Separator];
    }
    ok := CompressDir(entry, BaseName(path), zos, entryPath);
  }

  /** The writing loop, one source further. */
  lemma WalkSourcesNext(fs: Sources, paths: seq<JString>, k: nat)
    requires AllExist(fs, paths) && k < |paths|
    ensures AllExist(fs, paths[..k]) && AllExist(fs, paths[..k + 1])
    ensures WalkSources(fs, paths[..k + 1]) == Then(WalkSources(fs, paths[..k]), WalkSource(paths[k].value, fs[paths[k].value]))
  {
    assert paths[..k + 1][..k] == paths[..k];
  }

  // ---------------------------------------------------------------------
  // Properties of the archiver

  /** A single readable file that passes the checks is archived as one entry under its bare name. */
  lemma ZipSingleFile(fs: Sources, src: string, zipFileName: JString, data: Bytes)
    requires src != "" && src in fs && fs[src] == File(data, true)
    requires !IsEmptyString(zipFileName) && zipFileName.value != src
    ensures ZipDirRun(fs, Some(src), zipFileName, true) == Run(None, Finished([Entry(BaseName(src), data)]))
  {
    SingleFileSource(src, data);
  }

  /** zipDir throws while writing exactly when some file it reaches cannot be opened. */
  lemma ZipDirOk(fs: Sources, srcFilePath: JString, zipFileName: JString)
    requires CheckZipDir(fs, srcFilePath, zipFileName) == None
    ensures ZipDirRun(fs, srcFilePath, zipFileName, true).thrown == None <==> ReachableReadable(fs[srcFilePath.value])
  {
    var src := srcFilePath.value;
    WalkOk(fs[src], BaseName(src), RootPrefix(src, fs[src]));
  }

  /** zipFiles with one source path behaves as zipDir on it. */
  lemma ZipFilesOfOne(fs: Sources, path: JString, zipFileName: JString, canCreate: bool)
    ensures ZipFilesRun(fs, [path], zipFileName, canCreate) == ZipDirRun(fs, path, zipFileName, canCreate)
  {
    if !IsEmptyString(zipFileName) {
      assert CheckSources(fs, [path], zipFileName.value) == CheckSource(fs, path, zipFileName.value) by {
        assert [path][1..] == [];
      }
      if CheckSource(fs, path, zipFileName.value) == None {
        assert AllExist(fs, [path]);
        assert [path][..0] == [];
        assert WalkSources(fs, [path]).entries == [] + WalkSource(path.value, fs[path.value]).entries;
      }
    }
  }

  /** The sources' walks joined in source order, each from its own root prefix. */
  function InSourceOrder(fs: Sources, paths: seq<JString>): seq<Entry>
    requires AllExist(fs, paths)
    decreases |paths|
  {
    if paths == [] then []
    else
      AllExistSlice(fs, paths, 1, |paths|);
      assert paths[1..|paths|] == paths[1..];
      WalkSource(paths[0].value, fs[paths[0].value]).entries + InSourceOrder(fs, paths[1..])
  }

  /** Joining in source order, with the last source split off. */
  lemma {:induction false} InSourceOrderSnoc(fs: Sources, paths: seq<JString>)
    requires AllExist(fs, paths) && paths != []
    ensures AllExist(fs, paths[..|paths| - 1])
    ensures var last := paths[|paths| - 1].value;
      InSourceOrder(fs, paths) == InSourceOrder(fs, paths[..|paths| - 1]) + WalkSource(last, fs[last]).entries
    decreases |paths|
  {
    var n := |paths|;
    var init := paths[..n - 1];
    AllExistSlice(fs, paths, 0, n - 1);
    assert paths[0..n - 1] == init;
    if n > 1 {
      var tl := paths[1..];
      AllExistSlice(fs, paths, 1, n);
      assert paths[1..n] == tl;
      InSourceOrderSnoc(fs, tl);
      assert tl[..|tl| - 1] == init[1..];
      assert init[0] == paths[0] && tl[|tl| - 1] == paths[n - 1];
      var last := paths[n - 1].value;
      var h := WalkSource(paths[0].value, fs[paths[0].value]).entries;
      assert InSourceOrder(fs, init) == h + InSourceOrder(fs, init[1..]);
      ConcatAssoc(h, InSourceOrder(fs, init[1..]), WalkSource(last, fs[last]).entries);
    }
  }

  /** A slice of paths that all exist. */
  lemma AllExistSlice(fs: Sources, paths: seq<JString>, lo: nat, hi: nat)
    requires AllExist(fs, paths) && lo <= hi <= |paths|
    ensures AllExist(fs, paths[lo..hi])
  {
    assert forall i :: 0 <= i < hi - lo ==> paths[lo..hi][i] == paths[lo + i];
  }

  /** A stream that was written to the end holds the sources' walks in source order. */
  lemma {:induction false} SourceOrder(fs: Sources, paths: seq<JString>)
    requires AllExist(fs, paths)
    ensures WalkSources(fs, paths).ok ==> WalkSources(fs, paths).entries == InSourceOrder(fs, paths)
    decreases |paths|
  {
    if paths != [] {
      SourceOrder(fs, paths[..|paths| - 1]);
      InSourceOrderSnoc(fs, paths);
    }
  }

  /** Every file reachable from every source can be opened. */
  predicate SourcesReadable(fs: Sources, paths: seq<JString>)
    requires AllExist(fs, paths)
  {
    forall i :: 0 <= i < |paths| ==> ReachableReadable(fs[paths[i].value])
  }

  /** One more source is readable when it and the earlier ones are. */
  lemma SourcesReadableSnoc(fs: Sources, paths: seq<JString>)
    requires AllExist(fs, paths) && paths != []
    ensures AllExist(fs, paths[..|paths| - 1])
    ensures SourcesReadable(fs, paths) <==>
      SourcesReadable(fs, paths[..|paths| - 1]) && ReachableReadable(fs[paths[|paths| - 1].value])
  {
    var init := paths[..|paths| - 1];
    assert forall i :: 0 <= i < |init| ==> init[i] == paths[i];
  }

  /** zipFiles returns normally exactly when every file reached from every source can be opened. */
  lemma {:induction false} WalkSourcesOk(fs: Sources, paths: seq<JString>)
    requires AllExist(fs, paths)
    ensures WalkSources(fs, paths).ok <==> SourcesReadable(fs, paths)
    decreases |paths|
  {
    if paths != [] {
      var init, last := paths[..|paths| - 1], paths[|paths| - 1].value;
      WalkSourcesOk(fs, init);
      WalkOk(fs[last], BaseName(last), RootPrefix(last, fs[last]));
      assert WalkSources(fs, paths).ok <==> WalkSources(fs, init).ok && WalkSource(last, fs[last]).ok;
      SourcesReadableSnoc(fs, paths);
    }
  }

  /** A finished zipFiles archive: all paths passed, and its entries are the per-source walks in order. */
  lemma ZipFilesInSourceOrder(fs: Sources, paths: seq<JString>, zipFileName: JString, canCreate: bool)
    requires ZipFilesRun(fs, paths, zipFileName, canCreate).archive.Finished?
    ensures AllExist(fs, paths)
    ensures ZipFilesRun(fs, paths, zipFileName, canCreate).archive.entries == InSourceOrder(fs, paths)
    ensures forall i :: 0 <= i < |paths| ==> ReachableReadable(fs[paths[i].value])
  {
    SourceOrder(fs, paths);
    WalkSourcesOk(fs, paths);
  }
}

=== FILE: commands.dfy ===
/**
 The plugin's three commands as `execute` dispatches them: zip, zipFiles and
 unzip, what each returns or throws, and the error code `execute` reports.
 */
module Commands {
  import opened Wrappers
  import opened Paths
  import opened Streams
  import opened Errors
  import opened FileTree
  import opened Archiver
  import opened Extractor

  const CommandZip: string := "zip"
  const CommandZipFiles: string := "zipFiles"
  const CommandUnzip: string := "unzip"

  /** How a plugin method ended: the boolean it returned, or the exception it threw. */
  datatype Outcome = Returned(success: bool) | Threw(failure: Failure)

  /** The plugin's ErrorCode enumeration. */
  datatype ErrorCode =
    | NoError
    | FileNotExist
    | CompressFileError
    | UnzipFileError
    | FilePathError
    | FileTypeError

  predicate IsCommand(action: string) {
    action == CommandZip || action == CommandZipFiles || action == CommandUnzip
  }

  /**
   The catch clauses of `execute`: the code reported for the outcome of the
   action's method. Only zip tells a missing file apart; two codes are never
   produced.
   */
  function ErrorCodeFor(action: string, o: Outcome): (code: ErrorCode)
    ensures code != UnzipFileError && code != FileTypeError
    ensures code == NoError <==> !IsCommand(action) || o == Returned(true)
    ensures code == FilePathError <==> IsCommand(action) && o == Returned(false)
    ensures code == FileNotExist <==> action == CommandZip && o == Threw(FileNotFound)
    ensures code == CompressFileError <==>
      IsCommand(action) && o.Threw? && !(action == CommandZip && o.failure == FileNotFound)
  {
    if !IsCommand(action) then NoError
    else
      match o
      case Returned(success) => if success then NoError else FilePathError
      case Threw(f) => if action == CommandZip && f == FileNotFound then FileNotExist else CompressFileError
  }

  /** A method that returns normally after a run returns true; otherwise it throws what the run threw. */
  function OutcomeOf(r: Run): (o: Outcome)
    ensures o == Returned(true) <==> r.thrown == None
    ensures r.thrown.Some? ==> o == Threw(r.thrown.value)
  {
    if r.thrown.Some? then Threw(r.thrown.value) else Returned(true)
  }

  /** A command's outcome together with the archive it left. */
  datatype Zipped = Zipped(outcome: Outcome, archive: ArchiveFile)

  /** zip(srcEntry, destZipFile): zipDir, then true. It never returns false. */
  function ZipCommand(fs: Sources, srcEntry: JString, destZipFile: JString, canCreate: bool): (z: Zipped)
    ensures z.outcome != Returned(false)
    ensures z.outcome == Returned(true) <==> z.archive.Finished?
    ensures z.archive == ZipDirRun(fs, srcEntry, destZipFile, canCreate).archive
  {
    var r := ZipDirRun(fs, srcEntry, destZipFile, canCreate);
    Zipped(OutcomeOf(r), r.archive)
  }

  /**
   The screening loop of zipFiles(JSONArray, …): a null path makes it return
   false, a path naming nothing makes it throw FileNotFoundException; the
   first such path decides.
   */
  function Screen(fs: Sources, paths: seq<JString>): (r: Option<Outcome>)
    ensures r == None <==> AllExist(fs, paths)
    ensures r == None || r == Some(Returned(false)) || r == Some(Threw(FileNotFound))
    decreases |paths|
  {
    if paths == [] then None
    else if paths[0].None? then Some(Returned(false))
    else if paths[0].value !in fs then Some(Threw(FileNotFound))
    else
      var rest := Screen(fs, paths[1..]);
      assert AllExist(fs, paths) <==> AllExist(fs, paths[1..]) by {
        assert forall i :: 0 <= i < |paths| - 1 ==> paths[1..][i] == paths[i + 1];
      }
      rest
  }

  /**
   zipFiles(JSONArray, destZipFile): the screening loop, then false for a null
   destination, then zipFiles(String[], …) and true.
   */
  function ZipFilesCommand(fs: Sources, srcEntries: seq<JString>, destZipFile: JString, canCreate: bool): (z: Zipped)
    ensures z.outcome == Returned(true) <==> z.archive.Finished?
    ensures z.archive.Finished? ==> AllExist(fs, srcEntries) && z.archive.entries == InSourceOrder(fs, srcEntries)
    ensures z.outcome == Returned(false) <==>
      (exists i :: 0 <= i < |srcEntries| && srcEntries[i].None? && AllExist(fs, srcEntries[..i]))
      || (AllExist(fs, srcEntries) && destZipFile.None?)
  {
    var screened := Screen(fs, srcEntries);
    ScreenFalse(fs, srcEntries);
    if screened != None then Zipped(screened.value, NotCreated)
    else if destZipFile.None? then Zipped(Returned(false), NotCreated)
    else
      var r := ZipFilesRun(fs, srcEntries, destZipFile, canCreate);
      if r.archive.Finished? then
        ZipFilesInSourceOrder(fs, srcEntries, destZipFile, canCreate);
        Zipped(OutcomeOf(r), r.archive)
      else Zipped(OutcomeOf(r), r.archive)
  }

  /** The screening loop returns false exactly at a null path whose predecessors all exist. */
  lemma {:induction false} ScreenFalse(fs: Sources, paths: seq<JString>)
    ensures Screen(fs, paths) == Some(Returned(false)) <==>
      exists i :: 0 <= i < |paths| && paths[i].None? && AllExist(fs, paths[..i])
    decreases |paths|
  {
    if paths != [] {
      assert paths[..0] == [];
      ScreenFalse(fs, paths[1..]);
      if paths[0].Some? && paths[0].value in fs {
        forall i | 0 < i <= |paths|
          ensures AllExist(fs, paths[..i]) <==> AllExist(fs, paths[1..][..i - 1])
        {
          assert paths[1..][..i - 1] == paths[..i][1..];
        }
        if Screen(fs, paths) == Some(Returned(false)) {
          var i :| 0 <= i < |paths[1..]| && paths[1..][i].None? && AllExist(fs, paths[1..][..i]);
          assert paths[i + 1].None? && AllExist(fs, paths[..i + 1]);
        } else {
          forall i | 0 < i < |paths| && paths[i].None?
            ensures !AllExist(fs, paths[..i])
          {
            assert paths[1..][i - 1] == paths[i];
          }
        }
      } else if paths[0].Some? {
        forall i | 0 < i < |paths|
          ensures !AllExist(fs, paths[..i])
        {
          assert paths[..i][0] == paths[0];
        }
      }
    }
  }

  /** The screening loop of zipFiles(JSONArray, …). */
  method ScreenPaths(fs: Sources, srcEntries: seq<JString>) returns (r: Option<Outcome>)
    ensures r == Screen(fs, srcEntries)
  {
    var i := 0;
    while i < |srcEntries|
      invariant 0 <= i <= |srcEntries|
      invariant Screen(fs, srcEntries) == Screen(fs, srcEntries[i..])
    {
      assert srcEntries[i..][1..] == srcEntries[i + 1..];
      var path := srcEntries[i];
      if path == None {
        return Some(Returned(false));
      }
      if path.value !in fs {
        return Some(Threw(FileNotFound));
      }
      i := i + 1;
    }
    return None;
  }

  /** zipFiles(JSONArray, destZipFile) */
  method ZipFilesFromJson(fs: Sources, srcEntries: seq<JString>, destZipFile: JString, canCreate: bool)
    returns (z: Zipped)
    ensures z == ZipFilesCommand(fs, srcEntries, destZipFile, canCreate)
  {
    var screened := ScreenPaths(fs, srcEntries);
    if screened != None {
      return Zipped(screened.value, NotCreated);
    }
    if destZipFile == None {
      return Zipped(Returned(false), NotCreated);
    }
    var r := ZipFiles(fs, srcEntries, destZipFile, canCreate);
    z := Zipped(OutcomeOf(r), r.archive);
  }

  // ---------------------------------------------------------------------
  // unzip

  /** A command's outcome together with the disk it left. */
  datatype Unzipped = Unzipped(outcome: Outcome, disk: Disk)

  /**
   unzipFile(targetPath, zipFilePath). `stored` is what FileInputStream reads
   at zipFilePath: `None` when it cannot be opened (FileNotFoundException).
   A false result of the extraction loop becomes an IOException.
   */
  function UnzipFileRun(d: Disk, denied: set<Path>, targetPath: string, stored: Option<seq<Entry>>): (u: Unzipped)
    ensures u.outcome != Returned(false) && u.outcome != Threw(IllegalArgument)
    ensures stored.None? ==> u == Unzipped(Threw(FileNotFound), d)
    ensures stored.Some? ==>
      && u.disk == UnzipRun(d, denied, targetPath, stored.value).disk
      && (u.outcome == Returned(true) <==> UnzipRun(d, denied, targetPath, stored.value).ok)
    ensures stored.Some? && !UnzipRun(d, denied, targetPath, stored.value).ok ==> u.outcome == Threw(IOFailure)
  {
    if stored.None? then Unzipped(Threw(FileNotFound), d)
    else
      var x := UnzipRun(d, denied, targetPath, stored.value);
      Unzipped(if x.ok then Returned(true) else Threw(IOFailure), x.disk)
  }

  /** unzip(zipFilePath, destPath): false for a null argument, otherwise unzipFile and true. */
  function UnzipCommand(d: Disk, denied: set<Path>, zipFilePath: JString, destPath: JString, stored: Option<seq<Entry>>)
    : (u: Unzipped)
    ensures u.outcome == Returned(false) <==> zipFilePath.None? || destPath.None?
    ensures u.outcome == Returned(false) ==> u.disk == d
  {
    if zipFilePath.None? || destPath.None? then Unzipped(Returned(false), d)
    else UnzipFileRun(d, denied, destPath.value, stored)
  }

  /** unzipFile */
  method UnzipFile(targetPath: string, stored: Option<seq<Entry>>, fs: FileSystem) returns (o: Outcome)
    modifies fs
    ensures Unzipped(o, fs.objects) == UnzipFileRun(old(fs.objects), fs.denied, targetPath, stored)
  {
    if stored == None {
      return Threw(FileNotFound);
    }
    var zis := new ZipReader(stored.value);
    var ok := UnzipFileFromStream(targetPath, zis, fs);
    if !ok {
      return Threw(IOFailure);
    }
    o := Returned(true);
  }

  /** unzip */
  method Unzip(zipFilePath: JString, destPath: JString, stored: Option<seq<Entry>>, fs: FileSystem)
    returns (o: Outcome)
    modifies fs
    ensures Unzipped(o, fs.objects) == UnzipCommand(old(fs.objects), fs.denied, zipFilePath, destPath, stored)
  {
    if zipFilePath == None || destPath == None {
      return Returned(false);
    }
    o := UnzipFile(destPath.value, stored, fs);
  }

  // ---------------------------------------------------------------------
  // The codes the commands can report

  /** zip reports FILE_NOT_EXIST for a missing source and never FILE_PATH_ERROR. */
  lemma ZipCodes(fs: Sources, srcEntry: JString, destZipFile: JString, canCreate: bool)
    ensures var code := ErrorCodeFor(CommandZip, ZipCommand(fs, srcEntry, destZipFile, canCreate).outcome);
      && code != FilePathError
      && (code == NoError <==> ZipDirRun(fs, srcEntry, destZipFile, canCreate).archive.Finished?)
      && (!IsEmptyString(srcEntry) && !IsEmptyString(destZipFile) && srcEntry.value !in fs ==> code == FileNotExist)
      && (CheckZipDir(fs, srcEntry, destZipFile) == None && !ReachableReadable(fs[srcEntry.value]) ==> code == FileNotExist)
  {
    if CheckZipDir(fs, srcEntry, destZipFile) == None && canCreate {
      ZipDirOk(fs, srcEntry, destZipFile);
    }
  }

  /** zipFiles reports a missing source as COMPRESS_FILE_ERROR and a null path as FILE_PATH_ERROR. */
  lemma {:induction false} ZipFilesCodes(fs: Sources, srcEntries: seq<JString>, destZipFile: JString, canCreate: bool, i: nat)
    requires i < |srcEntries| && AllExist(fs, srcEntries[..i])
    ensures var code := ErrorCodeFor(CommandZipFiles, ZipFilesCommand(fs, srcEntries, destZipFile, canCreate).outcome);
      && (srcEntries[i].None? ==> code == FilePathError)
      && (srcEntries[i].Some? && srcEntries[i].value !in fs ==> code == CompressFileError)
  {
    ScreenAt(fs, srcEntries, i);
  }

  /**
   zipFiles of an empty array reports COMPRESS_FILE_ERROR: the screening
   passes, and closing an archive without entries throws a ZipException.
   */
  lemma ZipFilesNoEntries(fs: Sources, destZipFile: JString, canCreate: bool)
    requires destZipFile.Some?
    ensures var z := ZipFilesCommand(fs, [], destZipFile, canCreate);
      ErrorCodeFor(CommandZipFiles, z.outcome) == CompressFileError && !z.archive.Finished?
  {
    assert Screen(fs, []) == None;
  }

  /** The screening loop stops at the first path that is null or names nothing. */
  lemma {:induction false} ScreenAt(fs: Sources, paths: seq<JString>, i: nat)
    requires i < |paths| && AllExist(fs, paths[..i])
    ensures paths[i].None? ==> Screen(fs, paths) == Some(Returned(false))
    ensures paths[i].Some? && paths[i].value !in fs ==> Screen(fs, paths) == Some(Threw(FileNotFound))
    decreases i
  {
    if i > 0 {
      assert paths[..i][0] == paths[0];
      assert paths[1..][..i - 1] == paths[..i][1..];
      assert AllExist(fs, paths[1..][..i - 1]) by {
        assert forall j :: 0 <= j < i - 1 ==> paths[..i][1..][j] == paths[..i][j + 1];
      }
      ScreenAt(fs, paths[1..], i - 1);
    }
  }

  /** unzip reports every exception as COMPRESS_FILE_ERROR, a null argument as FILE_PATH_ERROR. */
  lemma UnzipCodes(d: Disk, denied: set<Path>, zipFilePath: JString, destPath: JString, stored: Option<seq<Entry>>)
    ensures var code := ErrorCodeFor(CommandUnzip, UnzipCommand(d, denied, zipFilePath, destPath, stored).outcome);
      && (code == FilePathError <==> zipFilePath.None? || destPath.None?)
      && (zipFilePath.Some? && destPath.Some? ==>
        (code == NoError <==> stored.Some? && UnzipRun(d, denied, destPath.value, stored.value).ok))
      && (zipFilePath.Some? && destPath.Some? && !(stored.Some? && UnzipRun(d, denied, destPath.value, stored.value).ok)
        ==> code == CompressFileError)
  {
  }
}

=== FILE: errors.dfy ===
/** The exceptions the archiver and the extractor throw. */
module Errors {
  /**
   IllegalArgument is IllegalArgumentException, FileNotFound is
   FileNotFoundException and IOFailure is any other IOException.
   */
  datatype Failure = IllegalArgument | FileNotFound | IOFailure
}

=== FILE: extractor.dfy ===
/**
 The extractor: unzipFileFromStream replaying the entries of an archive onto
 a file system below a target path, with java.io.File.mkdirs and
 FileOutputStream as the only ways it changes the disk.
 */
module Extractor {
  import opened Wrappers
  import opened Paths
  import opened FileTree
  import opened Streams

  /** A normalised path: its components, from the root. */
  type Path = seq<string>

  /** What a path names on the disk. */
  datatype Obj = DirObj | FileObj(data: Bytes)

  /** The disk: the objects present, by path. The root `[]` is always a directory. */
  type Disk = map<Path, Obj>

  /** File.getParentFile() of a path with at least one component. */
  function Parent(p: Path): (q: Path)
    requires p != []
    ensures |q| == |p| - 1 && q <= p
  {
    p[..|p| - 1]
  }

  /** File.exists() */
  predicate Exists(d: Disk, p: Path)
  {
    p == [] || p in d
  }

  /** File.isDirectory() */
  predicate IsDir(d: Disk, p: Path)
  {
    p == [] || (p in d && d[p].DirObj?)
  }

  /**
   File.mkdir() succeeds: `p` is absent, its parent is a directory and the
   system does not refuse it (`denied` are the paths it refuses).
   */
  predicate CanMkdir(d: Disk, denied: set<Path>, p: Path)
  {
    p != [] && !Exists(d, p) && IsDir(d, Parent(p)) && p !in denied
  }

  /**
   `new FileOutputStream(p)` succeeds: `p` is not a directory, its parent is
   one and the system does not refuse it. An existing file is truncated.
   */
  predicate CanOpen(d: Disk, denied: set<Path>, p: Path)
  {
    p != [] && !IsDir(d, p) && IsDir(d, Parent(p)) && p !in denied
  }

  /** `r` is `d` with directories added at prefixes of `p`, and nothing else changed. */
  ghost predicate GrowsAlong(d: Disk, r: Disk, p: Path) {
    && (forall q :: q in d ==> q in r && r[q] == d[q])
    && (forall q :: q in r && q !in d ==> q <= p && r[q] == DirObj)
  }

  /**
   File.mkdirs(): nothing when `p` exists; otherwise mkdir, and when that
   fails, mkdirs of the parent followed by one more mkdir.
   */
  function Mkdirs(d: Disk, denied: set<Path>, p: Path): (r: Disk)
    ensures GrowsAlong(d, r, p)
    decreases |p|
  {
    if Exists(d, p) then d
    else if CanMkdir(d, denied, p) then d[p := DirObj]
    else
      var up := Mkdirs(d, denied, Parent(p));
      if CanMkdir(up, denied, p) then up[p := DirObj] else up
  }

  /** Nothing on the way to `p` blocks mkdirs: no prefix is refused or is a file. */
  ghost predicate Clear(d: Disk, denied: set<Path>, p: Path) {
    forall k :: 0 < k <= |p| ==> p[..k] !in denied && (p[..k] in d ==> d[p[..k]].DirObj?)
  }

  /** With nothing in the way, mkdirs leaves `p` a directory. */
  lemma {:induction false} MkdirsMakesDir(d: Disk, denied: set<Path>, p: Path)
    requires Clear(d, denied, p)
    ensures IsDir(Mkdirs(d, denied, p), p)
    decreases |p|
  {
    if Exists(d, p) {
      if p != [] {
        assert p[..|p|] == p;
      }
    } else if !CanMkdir(d, denied, p) {
      var q := Parent(p);
      forall k | 0 < k <= |q|
        ensures q[..k] !in denied && (q[..k] in d ==> d[q[..k]].DirObj?)
      {
        assert q[..k] == p[..k];
      }
      MkdirsMakesDir(d, denied, q);
      assert p[..|p|] == p;
    }
  }

  /** Every object present has a directory as its parent. */
  ghost predicate Sound(d: Disk) {
    forall q :: q in d ==> q != [] && IsDir(d, Parent(q))
  }

  /** mkdirs keeps the disk sound. */
  lemma {:induction false} MkdirsSound(d: Disk, denied: set<Path>, p: Path)
    requires Sound(d)
    ensures Sound(Mkdirs(d, denied, p))
    decreases |p|
  {
    if !Exists(d, p) && !CanMkdir(d, denied, p) {
      MkdirsSound(d, denied, Parent(p));
    }
  }

  /** The outcome of replaying entries: the disk left and whether the replay went through. */
  datatype Extracted = Extracted(disk: Disk, ok: bool)

  /** `new File(targetPath + File.separator + name)`, normalised. */
  function EntryPath(targetPath: string, name: string): Path {
    Split(targetPath + [Separator] + name)
  }

  /** The entry's path is the target's components followed by the name's. */
  lemma EntryUnderTarget(targetPath: string, name: string)
    ensures EntryPath(targetPath, name) == Split(targetPath) + Split(name)
  {
    SplitJoin(targetPath, name);
  }

  /**
   The open of a file entry succeeds: its path has a parent, and once that
   parent is mkdirs'ed `new FileOutputStream` goes through.
   */
  predicate FileOpens(d: Disk, denied: set<Path>, targetPath: string, e: Entry) {
    var p := EntryPath(targetPath, e.name);
    p != [] && CanOpen(Mkdirs(d, denied, Parent(p)), denied, p)
  }

  /**
   One iteration of the extraction loop. A directory entry is mkdirs'ed when
   absent. A file entry gets its parent mkdirs'ed when absent, then is opened
   (which fails for a path without a parent) and receives the payload; a
   failed open ends the replay with the disk as it stands.
   */
  function ExtractEntry(d: Disk, denied: set<Path>, targetPath: string, e: Entry): (r: Extracted)
    ensures e.IsDirectory() ==> r.ok
    ensures !e.IsDirectory() ==> (r.ok <==> FileOpens(d, denied, targetPath, e))
    ensures !e.IsDirectory() && r.ok ==>
      var p := EntryPath(targetPath, e.name);
      && p != [] && p in r.disk && r.disk[p] == FileObj(e.data) && IsDir(r.disk, Parent(p))
    ensures forall q :: q in d && (e.IsDirectory() || !r.ok || q != EntryPath(targetPath, e.name)) ==>
      q in r.disk && r.disk[q] == d[q]
    ensures forall q :: IsDir(d, q) ==> IsDir(r.disk, q)
    ensures forall q :: q in r.disk && q !in d ==> q <= EntryPath(targetPath, e.name)
  {
    var p := EntryPath(targetPath, e.name);
    if e.IsDirectory() then Extracted(Mkdirs(d, denied, p), true)
    else if p == [] then Extracted(d, false)
    else
      var up := Mkdirs(d, denied, Parent(p));
      if CanOpen(up, denied, p) then Extracted(up[p := FileObj(e.data)], true)
      else Extracted(up, false)
  }

  /** The extraction loop over `es`, in archive order; it stops at the first failure. */
  function ExtractAll(d: Disk, denied: set<Path>, targetPath: string, es: seq<Entry>): (r: Extracted)
    ensures forall q :: q in d ==> q in r.disk
    ensures !r.ok ==> es != []
  {
    if es == [] then Extracted(d, true)
    else
      var prev := ExtractAll(d, denied, targetPath, es[..|es| - 1]);
      if !prev.ok then prev else ExtractEntry(prev.disk, denied, targetPath, es[|es| - 1])
  }

  /** unzipFileFromStream: the target directory is made first, then the entries replayed. */
  function UnzipRun(d: Disk, denied: set<Path>, targetPath: string, es: seq<Entry>): (r: Extracted)
    ensures forall q :: q in d ==> q in r.disk
  {
    ExtractAll(Mkdirs(d, denied, Split(targetPath + [Separator])), denied, targetPath, es)
  }

  // ---------------------------------------------------------------------
  // Properties of the replay

  /** Entry `k` goes through on the disk the entries before it left. */
  ghost predicate StepOk(d: Disk, denied: set<Path>, targetPath: string, es: seq<Entry>, k: nat)
    requires k < |es|
  {
    es[k].IsDirectory() || FileOpens(ExtractAll(d, denied, targetPath, es[..k]).disk, denied, targetPath, es[k])
  }

  /** Every file entry opens on the disk its predecessors left. */
  ghost predicate AllStepsOk(d: Disk, denied: set<Path>, targetPath: string, es: seq<Entry>) {
    forall k :: 0 <= k < |es| ==> StepOk(d, denied, targetPath, es, k)
  }

  /** The steps of `es` are those of all but its last entry, then the last one. */
  lemma AllStepsSnoc(d: Disk, denied: set<Path>, targetPath: string, es: seq<Entry>)
    requires es != []
    ensures AllStepsOk(d, denied, targetPath, es) <==>
      AllStepsOk(d, denied, targetPath, es[..|es| - 1]) && StepOk(d, denied, targetPath, es, |es| - 1)
  {
    var init := es[..|es| - 1];
    forall k | 0 <= k < |init|
      ensures StepOk(d, denied, targetPath, init, k) <==> StepOk(d, denied, targetPath, es, k)
    {
      assert init[k] == es[k] && init[..k] == es[..k];
    }
  }

  /** The replay goes through exactly when every file entry opens on the disk its predecessors left. */
  lemma {:induction false} ExtractAllOk(d: Disk, denied: set<Path>, targetPath: string, es: seq<Entry>)
    ensures ExtractAll(d, denied, targetPath, es).ok <==> AllStepsOk(d, denied, targetPath, es)
    decreases |es|
  {
    if es != [] {
      var init := es[..|es| - 1];
      ExtractAllOk(d, denied, targetPath, init);
      AllStepsSnoc(d, denied, targetPath, es);
      var prev := ExtractAll(d, denied, targetPath, init);
      if prev.ok {
        var r := ExtractEntry(prev.disk, denied, targetPath, es[|es| - 1]);
        assert StepOk(d, denied, targetPath, es, |es| - 1) <==> r.ok;
      }
    }
  }

  /** unzipFileFromStream returns true exactly when every file entry opens, the target having been made first. */
  lemma UnzipRunOk(d: Disk, denied: set<Path>, targetPath: string, es: seq<Entry>)
    ensures UnzipRun(d, denied, targetPath, es).ok <==>
      AllStepsOk(Mkdirs(d, denied, Split(targetPath + [Separator])), denied, targetPath, es)
  {
    ExtractAllOk(Mkdirs(d, denied, Split(targetPath + [Separator])), denied, targetPath, es);
  }

  /** A replay that went through went through on every prefix. */
  lemma {:induction false} PrefixOk(d: Disk, denied: set<Path>, targetPath: string, es: seq<Entry>, k: nat)
    requires k <= |es| && ExtractAll(d, denied, targetPath, es).ok
    ensures ExtractAll(d, denied, targetPath, es[..k]).ok
    decreases |es|
  {
    if k < |es| {
      assert es[..|es| - 1][..k] == es[..k];
      PrefixOk(d, denied, targetPath, es[..|es| - 1], k);
    } else {
      assert es[..k] == es;
    }
  }

  /** Once an entry fails, the later entries are not looked at. */
  lemma {:induction false} ExtractFailureStops(d: Disk, denied: set<Path>, targetPath: string, es: seq<Entry>, j: nat)
    requires j <= |es| && !ExtractAll(d, denied, targetPath, es[..j]).ok
    ensures ExtractAll(d, denied, targetPath, es) == ExtractAll(d, denied, targetPath, es[..j])
    decreases |es| - j
  {
    if j < |es| {
      assert es[..j + 1][..j] == es[..j];
      ExtractFailureStops(d, denied, targetPath, es, j + 1);
    } else {
      assert es[..j] == es;
    }
  }

  /**
   A failed replay failed on a file entry, after every entry before it went
   through, and without rollback: everything the earlier entries left on the
   disk is still there.
   */
  lemma {:induction false} FailureKeepsEarlier(d: Disk, denied: set<Path>, targetPath: string, es: seq<Entry>)
    requires !ExtractAll(d, denied, targetPath, es).ok
    ensures exists k :: 0 <= k < |es| && FailedAt(d, denied, targetPath, es, k)
    decreases |es|
  {
    var prev := ExtractAll(d, denied, targetPath, es[..|es| - 1]);
    if !prev.ok {
      FailureKeepsEarlier(d, denied, targetPath, es[..|es| - 1]);
      var k :| 0 <= k < |es| - 1 && FailedAt(d, denied, targetPath, es[..|es| - 1], k);
      assert es[..|es| - 1][..k] == es[..k];
      assert FailedAt(d, denied, targetPath, es, k);
    } else {
      assert FailedAt(d, denied, targetPath, es, |es| - 1);
    }
  }

  /** The replay of `es` ends at entry `k`, a file entry, and leaves the earlier disk in place. */
  ghost predicate FailedAt(d: Disk, denied: set<Path>, targetPath: string, es: seq<Entry>, k: nat)
    requires k < |es|
  {
    var before := ExtractAll(d, denied, targetPath, es[..k]);
    var r := ExtractAll(d, denied, targetPath, es);
    && before.ok && !r.ok && !es[k].IsDirectory()
    && r == ExtractEntry(before.disk, denied, targetPath, es[k])
    && (forall q :: q in before.disk ==> q in r.disk && r.disk[q] == before.disk[q])
  }

  /**
   In a replay that went through, a file entry's path holds its payload unless
   a later file entry resolves to the same path: the last writer wins.
   */
  lemma {:induction false} LastWriteWins(d: Disk, denied: set<Path>, targetPath: string, es: seq<Entry>, i: nat)
    requires i < |es| && !es[i].IsDirectory() && ExtractAll(d, denied, targetPath, es).ok
    requires forall j :: i < j < |es| && !es[j].IsDirectory() ==>
      EntryPath(targetPath, es[j].name) != EntryPath(targetPath, es[i].name)
    ensures var p := EntryPath(targetPath, es[i].name);
      p in ExtractAll(d, denied, targetPath, es).disk && ExtractAll(d, denied, targetPath, es).disk[p] == FileObj(es[i].data)
    decreases |es|
  {
    var init := es[..|es| - 1];
    var prev := ExtractAll(d, denied, targetPath, init);
    if i < |es| - 1 {
      assert init[i] == es[i];
      forall j | i < j < |init| && !init[j].IsDirectory()
        ensures EntryPath(targetPath, init[j].name) != EntryPath(targetPath, init[i].name)
      {
        assert init[j] == es[j];
      }
      LastWriteWins(d, denied, targetPath, init, i);
    }
  }

  /** Directories stay directories through a replay. */
  lemma {:induction false} DirsPersist(d: Disk, denied: set<Path>, targetPath: string, es: seq<Entry>, q: Path)
    requires IsDir(d, q)
    ensures IsDir(ExtractAll(d, denied, targetPath, es).disk, q)
    decreases |es|
  {
    if es != [] {
      DirsPersist(d, denied, targetPath, es[..|es| - 1], q);
    }
  }

  /** One entry keeps the disk sound. */
  lemma EntrySound(d: Disk, denied: set<Path>, targetPath: string, e: Entry)
    requires Sound(d)
    ensures Sound(ExtractEntry(d, denied, targetPath, e).disk)
  {
    var p := EntryPath(targetPath, e.name);
    if e.IsDirectory() {
      MkdirsSound(d, denied, p);
    } else if p != [] {
      MkdirsSound(d, denied, Parent(p));
    }
  }

  /** A replay keeps the disk sound. */
  lemma {:induction false} ExtractSound(d: Disk, denied: set<Path>, targetPath: string, es: seq<Entry>)
    requires Sound(d)
    ensures Sound(ExtractAll(d, denied, targetPath, es).disk)
    decreases |es|
  {
    if es != [] {
      ExtractSound(d, denied, targetPath, es[..|es| - 1]);
      var prev := ExtractAll(d, denied, targetPath, es[..|es| - 1]);
      if prev.ok {
        EntrySound(prev.disk, denied, targetPath, es[|es| - 1]);
      }
    }
  }

  /** With nothing in the way, a directory entry leaves its path a directory. */
  lemma DirEntryMakesDir(d: Disk, denied: set<Path>, targetPath: string, e: Entry)
    requires e.IsDirectory() && Clear(d, denied, EntryPath(targetPath, e.name))
    ensures IsDir(ExtractEntry(d, denied, targetPath, e).disk, EntryPath(targetPath, e.name))
  {
    MkdirsMakesDir(d, denied, EntryPath(targetPath, e.name));
  }

  /**
   The target directory is made before any entry and survives the replay, when
   nothing on the way to it blocks mkdirs.
   */
  lemma TargetMadeFirst(d: Disk, denied: set<Path>, targetPath: string, es: seq<Entry>)
    requires Clear(d, denied, Split(targetPath))
    ensures IsDir(UnzipRun(d, denied, targetPath, es).disk, Split(targetPath))
  {
    SplitTrailing(targetPath);
    MkdirsMakesDir(d, denied, Split(targetPath));
    DirsPersist(Mkdirs(d, denied, Split(targetPath)), denied, targetPath, es, Split(targetPath));
  }

  // ---------------------------------------------------------------------
  // The file system and the extraction loop

  /** The device's file system, as java.io.File and FileOutputStream change it. */
  class FileSystem {
    var objects: Disk
    const denied: set<Path>

    constructor (objects: Disk, denied: set<Path>)
      ensures this.objects == objects && this.denied == denied
    {
      this.objects := objects;
      this.denied := denied;
    }

    /** File.exists() */
    method FileExists(p: Path) returns (b: bool)
      ensures b == Exists(objects, p)
    {
      b := p == [] || p in objects;
    }

    /** File.mkdirs(), its result ignored as the plugin ignores it. */
    method MakeDirs(p: Path)
      modifies this
      ensures objects == Mkdirs(old(objects), denied, p)
    {
      objects := Mkdirs(objects, denied, p);
    }

    /** `new FileOutputStream(p)`: false where it throws FileNotFoundException. */
    method OpenForWrite(p: Path) returns (ok: bool)
      modifies this
      ensures ok == CanOpen(old(objects), denied, p)
      ensures objects == if ok then old(objects)[p := FileObj([])] else old(objects)
    {
      ok := CanOpen(objects, denied, p);
      if ok {
        objects := objects[p := FileObj([])];
      }
    }

    /** FileOutputStream.write(buf, 0, len) on the file opened at `p`. */
    method Append(p: Path, buf: array<Byte>, len: nat)
      requires len <= buf.Length && p in objects && objects[p].FileObj?
      modifies this
      ensures objects == old(objects)[p := FileObj(old(objects)[p].data + buf[..len])]
    {
      objects := objects[p := FileObj(objects[p].data + buf[..len])];
    }
  }

  /**
   The copy loop of a file entry: the payload is read through a BUFFER_LEN
   buffer and appended to the file just opened at `p`.
   */
  method CopyEntry(body: ByteSource, fs: FileSystem, p: Path)
    requires body.Valid() && body.pos == 0
    requires p in fs.objects && fs.objects[p] == FileObj([])
    modifies body, fs
    ensures fs.objects == old(fs.objects)[p := FileObj(body.data)]
  {
    var buffer := new Byte[BufferLen];
    var readLen := body.Read(buffer);
    ghost var written: nat := 0;
    while readLen != -1
      invariant body.Valid() && buffer.Length == BufferLen
      invariant written <= body.pos
      invariant readLen == -1 ==> written == body.pos == |body.data|
      invariant readLen != -1 ==>
        && 0 < readLen <= BufferLen && written + readLen == body.pos
        && buffer[..readLen] == body.data[written..body.pos]
      invariant fs.objects == old(fs.objects)[p := FileObj(body.data[..written])]
      decreases |body.data| - body.pos + if readLen == -1 then 0 else 1
    {
      fs.Append(p, buffer, readLen);
      assert body.data[..written + readLen] == body.data[..written] + body.data[written..written + readLen];
      written := written + readLen;
      readLen := body.Read(buffer);
    }
    assert body.data[..written] == body.data;
  }

  /** One iteration of the extraction loop, on the entry named `zipFileName` whose payload `body` holds. */
  method ExtractOne(targetPath: string, zipFileName: string, body: ByteSource, fs: FileSystem) returns (ok: bool)
    requires body.Valid() && body.pos == 0
    modifies body, fs
    ensures Extracted(fs.objects, ok) == ExtractEntry(old(fs.objects), fs.denied, targetPath, Entry(zipFileName, body.data))
  {
    var file := Split(targetPath + [Separator] + zipFileName);
    if |zipFileName| > 0 && zipFileName[|zipFileName| - 1] == Separator {
      var present := fs.FileExists(file);
      if !present {
        fs.MakeDirs(file);
      }
      return true;
    }
    if file == [] {
      return false;
    }
    var parent := file[..|file| - 1];
    var present := fs.FileExists(parent);
    if !present {
      fs.MakeDirs(parent);
    }
    ok := fs.OpenForWrite(file);
    if ok {
      CopyEntry(body, fs, file);
    }
  }

  /**
   unzipFileFromStream over a ZipInputStream that has not been read from:
   the disk it leaves and its result are those of the replay.
   */
  method UnzipFileFromStream(targetPath: string, zis: ZipReader, fs: FileSystem) returns (ok: bool)
    requires zis.Valid() && zis.next == 0
    modifies zis, fs
    ensures fs.objects == UnzipRun(old(fs.objects), fs.denied, targetPath, zis.entries).disk
    ensures ok == UnzipRun(old(fs.objects), fs.denied, targetPath, zis.entries).ok
  {
    var dirFile := Split(targetPath + [Separator]);
    var present := fs.FileExists(dirFile);
    if !present {
      fs.MakeDirs(dirFile);
    }
    ghost var start := fs.objects;
    assert start == Mkdirs(old(fs.objects), fs.denied, dirFile);
    while true
      invariant zis.Valid()
      invariant ExtractAll(start, fs.denied, targetPath, zis.entries[..zis.next]) == Extracted(fs.objects, true)
      decreases |zis.entries| - zis.next
    {
      var name, body := zis.GetNextEntry();
      if name == None {
        break;
      }
      assert zis.entries[..zis.next][..zis.next - 1] == zis.entries[..zis.next - 1];
      ok := ExtractOne(targetPath, name.value, body, fs);
      if !ok {
        ExtractFailureStops(start, fs.denied, targetPath, zis.entries, zis.next);
        return;
      }
    }
    assert zis.entries[..zis.next] == zis.entries;
    ok := true;
  }
}

=== FILE: filetree.dfy ===
/**
 The file tree the archiver walks. A node's name is not part of the node: it
 is the name under which its parent lists it (File.list()), or, for a source
 root, java.io.File.getName() of the path the caller gave.
 */
module FileTree {
  import opened Wrappers
  import opened Paths

  type Byte = bv8
  type Bytes = seq<Byte>

  /**
   A regular file (`readable` is false when FileInputStream cannot open it),
   or a directory with its listing in File.list() order (`listable` is false
   when File.list() returns null for it).
   */
  datatype Node =
    | File(data: Bytes, readable: bool)
    | Dir(children: seq<Child>, listable: bool)

  /** One name of a directory listing and the node it names. */
  datatype Child = Child(name: string, node: Node)

  /**
   A real directory tree: listed names are valid, distinct, and never "." or
   "..", which File.list() does not report.
   */
  predicate WellFormed(n: Node)
    decreases n
  {
    match n
    case File(_, _) => true
    case Dir(cs, _) =>
      && (forall i :: 0 <= i < |cs| ==>
            ValidName(cs[i].name) && cs[i].name != "." && cs[i].name != ".." && WellFormed(cs[i].node))
      && (forall i, j :: 0 <= i < j < |cs| ==> cs[i].name != cs[j].name)
  }

  /** Every file in the tree can be opened and every directory listed. */
  predicate Intact(n: Node)
    decreases n
  {
    match n
    case File(_, readable) => readable
    case Dir(cs, listable) => listable && forall i :: 0 <= i < |cs| ==> Intact(cs[i].node)
  }

  /**
   Every file the walk can reach can be opened: the children of a directory
   that cannot be listed are never reached.
   */
  predicate ReachableReadable(n: Node)
    decreases n
  {
    match n
    case File(_, readable) => readable
    case Dir(cs, listable) => !listable || forall i :: 0 <= i < |cs| ==> ReachableReadable(cs[i].node)
  }

  /** Index of the first child named `n`, or |cs| when there is none. */
  function FindChild(cs: seq<Child>, n: string): (k: nat)
    ensures k <= |cs|
    ensures k < |cs| ==> cs[k].name == n
    ensures forall j :: 0 <= j < k ==> cs[j].name != n
  {
    if cs == [] then 0
    else if cs[0].name == n then 0
    else 1 + FindChild(cs[1..], n)
  }

  /** The node at relative component path `r`, if there is one. */
  function Lookup(n: Node, r: seq<string>): Option<Node>
    decreases n
  {
    if r == [] then Some(n)
    else
      match n
      case File(_, _) => None
      case Dir(cs, _) =>
        var k := FindChild(cs, r[0]);
        if k == |cs| then None else Lookup(cs[k].node, r[1..])
  }

  /** Number of regular files and childless directories in the tree. */
  function LeafCount(n: Node): nat
    decreases n
  {
    match n
    case File(_, _) => 1
    case Dir(cs, _) => if cs == [] then 1 else LeafCountAll(cs)
  }

  function LeafCountAll(cs: seq<Child>): nat
    decreases cs
  {
    if cs == [] then 0 else LeafCountAll(cs[..|cs| - 1]) + LeafCount(cs[|cs| - 1].node)
  }
}

=== FILE: paths.dfy ===
/**
 Path policy of the plugin: the string checks done before any stream is
 opened, java.io.File's view of a path string (its last component, its
 normalised component list) and the ZIP entry-name prefixes the archiver
 builds. The separator is fixed to '/'.
 */
module Paths {
  import opened Wrappers

  /** A Java `String` reference: `None` is `null`. */
  type JString = Option<string>

  /** File.separator, and the ZIP entry-name separator. */
  const Separator: char := '/'

  /** `isEmptyString`: null or of length zero. */
  function IsEmptyString(s: JString): (r: bool)
    ensures r <==> (s == None || s == Some(""))
  {
    s.None? || |s.value| < 1
  }

  /** A name as File.list() reports it: non-empty and free of separators. */
  predicate ValidName(n: string) {
    n != "" && Separator !in n
  }

  /** Index of the first separator of `s`. */
  function FirstSep(s: string): (i: nat)
    requires Separator in s
    ensures i < |s| && s[i] == Separator && Separator !in s[..i]
  {
    if s[0] == Separator then 0
    else
      assert s == [s[0]] + s[1..];
      var j := FirstSep(s[1..]);
      assert s[..j + 1] == [s[0]] + s[1..][..j];
      j + 1
  }

  /**
   The components java.io.File keeps of a path string: it is split at each
   separator and the empty pieces (doubled or trailing separators) dropped.
   */
  function Split(s: string): (parts: seq<string>)
    ensures forall i :: 0 <= i < |parts| ==> ValidName(parts[i])
    decreases |s|
  {
    if Separator !in s then (if s == "" then [] else [s])
    else
      var i := FirstSep(s);
      (if i == 0 then [] else [s[..i]]) + Split(s[i + 1..])
  }

  /** The first separator is the one with none before it. */
  lemma {:induction false} FirstSepAt(s: string, i: nat)
    requires i < |s| && s[i] == Separator && Separator !in s[..i]
    ensures FirstSep(s) == i
  {
    if i > 0 {
      assert s[0] == s[..i][0];
      assert s[1..][i - 1] == s[i];
      assert s[1..][..i - 1] == s[..i][1..];
      FirstSepAt(s[1..], i - 1);
    }
  }

  /** Joining two path strings with a separator joins their component lists. */
  lemma {:induction false} SplitJoin(a: string, b: string)
    ensures Split(a + [Separator] + b) == Split(a) + Split(b)
    decreases |a|
  {
    if Separator !in a {
      SplitJoinFirst(a, b);
    } else {
      var i := FirstSep(a);
      var rest := a[i + 1..];
      SplitJoinLater(a, b, i);
      SplitJoin(rest, b);
      ConcatAssoc(if i == 0 then [] else [a[..i]], Split(rest), Split(b));
    }
  }

  /** Concatenation regroups. */
  lemma ConcatAssoc<T>(x: seq<T>, y: seq<T>, z: seq<T>)
    ensures x + (y + z) == x + y + z
  {
  }

  /** The joining separator is the first one when `a` has none. */
  lemma SplitJoinFirst(a: string, b: string)
    requires Separator !in a
    ensures Split(a + [Separator] + b) == Split(a) + Split(b)
  {
    var s := a + [Separator] + b;
    assert s[..|a|] == a;
    FirstSepAt(s, |a|);
    assert s[|a| + 1..] == b;
  }

  /** Otherwise the first separator of `a` is that of the joined string. */
  lemma SplitJoinLater(a: string, b: string, i: nat)
    requires Separator in a && i == FirstSep(a)
    ensures var rest := a[i + 1..];
      Split(a + [Separator] + b) == (if i == 0 then [] else [a[..i]]) + Split(rest + [Separator] + b)
      && Split(a) == (if i == 0 then [] else [a[..i]]) + Split(rest)
  {
    var s := a + [Separator] + b;
    assert s[..i] == a[..i];
    assert s[i] == Separator;
    FirstSepAt(s, i);
    SplitAt(s, i);
    assert s[i + 1..] == a[i + 1..] + [Separator] + b;
    SplitAt(a, i);
  }

  /** Split at the first separator. */
  lemma SplitAt(s: string, i: nat)
    requires Separator in s && i == FirstSep(s)
    ensures Split(s) == (if i == 0 then [] else [s[..i]]) + Split(s[i + 1..])
  {
  }

  /** A valid name is its own single component. */
  lemma SplitName(n: string)
    requires ValidName(n)
    ensures Split(n) == [n]
  {
  }

  /** A trailing separator does not change the components. */
  lemma SplitTrailing(a: string)
    ensures Split(a + [Separator]) == Split(a)
  {
    SplitJoin(a, "");
    assert a + [Separator] + "" == a + [Separator];
  }

  /**
   java.io.File.getName(): the last component of the normalised path, or the
   empty string when there is none (the root, or the empty path).
   */
  function BaseName(path: string): (r: string)
    ensures Separator !in r
    ensures r == "" <==> Split(path) == []
    ensures r != "" ==> r == Split(path)[|Split(path)| - 1]
  {
    var parts := Split(path);
    if parts == [] then "" else parts[|parts| - 1]
  }

  /** An entry-name prefix: empty, or ending in a separator. */
  predicate IsPrefix(p: string) {
    p == "" || p[|p| - 1] == Separator
  }

  /**
   The prefix of entries below the directories `dirs`, nested under
   `prefix`: each directory name followed by a separator, as compressDir
   extends its entry path on every recursive call.
   */
  function Nest(prefix: string, dirs: seq<string>): string
    decreases |dirs|
  {
    if dirs == [] then prefix else Nest(prefix + dirs[0] + [Separator], dirs[1..])
  }

  /** The components of an entry-name prefix. */
  lemma {:induction false} SplitPrefixName(prefix: string, n: string)
    requires IsPrefix(prefix) && ValidName(n)
    ensures Split(prefix + n) == Split(prefix) + [n]
  {
    if prefix == "" {
      assert prefix + n == n;
      SplitName(n);
    } else {
      var p := prefix[..|prefix| - 1];
      assert prefix == p + [Separator];
      assert prefix + n == p + [Separator] + n;
      SplitJoin(p, n);
      SplitName(n);
      SplitTrailing(p);
    }
  }
}

=== FILE: roundtrip.dfy ===
/**
 Compressing a source and extracting the archive again: the entries that
 compressDir writes for an intact tree, replayed by the extraction loop below
 a target directory, rebuild that tree at target/name, and leave the rest of
 the disk as it was.
 */
module RoundTrip {
  import opened Wrappers
  import opened Paths
  import opened FileTree
  import opened Streams
  import opened TreeWalk
  import opened Archiver
  import opened Extractor

  /** A disk object is what the tree holds at the same place. */
  predicate Agrees(o: Obj, n: Option<Node>) {
    match o
    case DirObj => n.Some? && n.value.Dir?
    case FileObj(x) => n.Some? && n.value.File? && n.value.data == x
  }

  /** Everything at or below `root` on the disk is in `top`, with the same contents. */
  ghost predicate Mirrors(d: Disk, root: Path, top: Node) {
    forall x :: x in d && root <= x ==> Agrees(d[x], Lookup(top, x[|root|..]))
  }

  /** A node of the tree is on the disk at `x`: a file with its bytes, or a directory. */
  predicate Present(d: Disk, x: Path, n: Node) {
    match n
    case File(data, _) => x in d && d[x] == FileObj(data)
    case Dir(_, _) => IsDir(d, x)
  }

  /** Everything in `n` is on the disk below `at`. */
  ghost predicate Covered(d: Disk, at: Path, n: Node) {
    forall q :: Lookup(n, q).Some? ==> Present(d, at + q, Lookup(n, q).value)
  }

  /** `d2` keeps every path of `d`, changes and adds paths only at or below `root`. */
  ghost predicate Confined(d: Disk, d2: Disk, root: Path) {
    && (forall x :: x in d ==> x in d2 && (!(root <= x) ==> d2[x] == d[x]))
    && (forall x :: x in d2 && x !in d ==> root <= x)
  }

  /** The disk the replay works on: sound, with `base` a directory and `root` open for writing. */
  ghost predicate Ready(d: Disk, denied: set<Path>, base: Path, root: Path, top: Node) {
    && Sound(d) && IsDir(d, base) && Mirrors(d, root, top)
    && (forall x :: x in denied ==> !(root <= x))
  }

  // ---------------------------------------------------------------------
  // Lookups

  /** Looking up a path in steps. */
  lemma {:induction false} LookupAppend(n: Node, r: seq<string>, q: seq<string>)
    requires Lookup(n, r).Some?
    ensures Lookup(n, r + q) == Lookup(Lookup(n, r).value, q)
    decreases |r|
  {
    if r != [] {
      var cs := n.children;
      var k := FindChild(cs, r[0]);
      assert Lookup(n, r) == Lookup(cs[k].node, r[1..]);
      assert (r + q)[0] == r[0] && (r + q)[1..] == r[1..] + q;
      LookupAppend(cs[k].node, r[1..], q);
      assert Lookup(n, r + q) == Lookup(cs[k].node, (r + q)[1..]);
    } else {
      assert r + q == q;
    }
  }

  /** Every proper prefix of the path of a node names a directory. */
  lemma {:induction false} LookupPrefixDir(n: Node, r: seq<string>, k: nat)
    requires Lookup(n, r).Some? && k < |r|
    ensures Lookup(n, r[..k]).Some? && Lookup(n, r[..k]).value.Dir?
    decreases k
  {
    if k > 0 {
      var cs := n.children;
      var i := FindChild(cs, r[0]);
      assert r[..k][0] == r[0] && r[..k][1..] == r[1..][..k - 1];
      LookupPrefixDir(cs[i].node, r[1..], k - 1);
    }
  }

  /** In a well-formed directory a child is found under its own name. */
  lemma ChildAt(top: Node, l: seq<string>, cs: seq<Child>, listable: bool, i: nat)
    requires Lookup(top, l) == Some(Dir(cs, listable)) && WellFormed(Dir(cs, listable)) && i < |cs|
    ensures Lookup(top, l + [cs[i].name]) == Some(cs[i].node)
  {
    LookupAppend(top, l, [cs[i].name]);
    assert FindChild(cs, cs[i].name) == i;
  }

  // ---------------------------------------------------------------------
  // One entry at a time

  /** The replay of two runs of entries is the replay of the first, continued with the second. */
  lemma {:induction false} ExtractConcat(d: Disk, denied: set<Path>, t: string, a: seq<Entry>, b: seq<Entry>)
    requires ExtractAll(d, denied, t, a).ok
    ensures ExtractAll(d, denied, t, a + b) == ExtractAll(ExtractAll(d, denied, t, a).disk, denied, t, b)
    decreases |b|
  {
    if b == [] {
      assert a + b == a;
    } else {
      assert (a + b)[..|a + b| - 1] == a + b[..|b| - 1];
      ExtractConcat(d, denied, t, a, b[..|b| - 1]);
    }
  }

  /** mkdirs of a directory of the tree, with nothing refused below `root`, makes it and keeps the disk ready. */
  lemma {:induction false} MkdirsBelow(d: Disk, denied: set<Path>, base: Path, b: string, top: Node, l: seq<string>)
    requires Ready(d, denied, base, base + [b], top)
    requires Lookup(top, l).Some? && Lookup(top, l).value.Dir?
    ensures var up := Mkdirs(d, denied, base + [b] + l);
      IsDir(up, base + [b] + l) && Ready(up, denied, base, base + [b], top) && Confined(d, up, base + [b])
    decreases |l|
  {
    var root := base + [b];
    var p := root + l;
    assert p[|root|..] == l;
    if l == [] {
      assert p == root && Parent(p) == base;
    }
    if Exists(d, p) {
      assert p in d;
    } else if CanMkdir(d, denied, p) {
      AddDir(d, denied, base, root, top, l);
    } else {
      var l' := l[..|l| - 1];
      LookupPrefixDir(top, l, |l| - 1);
      assert root + l' == Parent(p);
      MkdirsBelow(d, denied, base, b, top, l');
      var up := Mkdirs(d, denied, Parent(p));
      assert p !in up;
      AddDir(up, denied, base, root, top, l);
      ConfinedTrans(d, up, up[p := DirObj], root);
    }
  }

  /** mkdir of a directory of the tree whose parent is a directory keeps the disk ready. */
  lemma AddDir(d: Disk, denied: set<Path>, base: Path, root: Path, top: Node, l: seq<string>)
    requires Ready(d, denied, base, root, top) && root != []
    requires Lookup(top, l).Some? && Lookup(top, l).value.Dir?
    requires root + l !in d && IsDir(d, Parent(root + l))
    ensures var up := d[root + l := DirObj];
      IsDir(up, root + l) && Ready(up, denied, base, root, top) && Confined(d, up, root)
  {
    var p := root + l;
    assert p[|root|..] == l;
    var up := d[p := DirObj];
    forall x | x in up
      ensures x != [] && IsDir(up, Parent(x))
    {
      if x != p {
        assert IsDir(d, Parent(x));
      }
    }
  }

  /** mkdirs of the parent of a file of the tree keeps the disk ready and makes the parent. */
  lemma ParentMade(d: Disk, denied: set<Path>, base: Path, b: string, top: Node, l: seq<string>)
    requires Ready(d, denied, base, base + [b], top)
    requires Lookup(top, l).Some? && Lookup(top, l).value.File?
    ensures var up := Mkdirs(d, denied, Parent(base + [b] + l));
      IsDir(up, Parent(base + [b] + l)) && Ready(up, denied, base, base + [b], top) && Confined(d, up, base + [b])
  {
    var root := base + [b];
    var p := root + l;
    if l == [] {
      assert Parent(p) == base;
    } else {
      assert Parent(p) == root + l[..|l| - 1];
      LookupPrefixDir(top, l, |l| - 1);
      MkdirsBelow(d, denied, base, b, top, l[..|l| - 1]);
    }
  }

  /** Opening and writing a file of the tree at its place keeps the disk ready. */
  lemma FileWritten(up: Disk, denied: set<Path>, base: Path, b: string, top: Node, l: seq<string>, data: Bytes)
    requires Ready(up, denied, base, base + [b], top) && IsDir(up, Parent(base + [b] + l))
    requires Lookup(top, l) == Some(File(data, true))
    ensures CanOpen(up, denied, base + [b] + l)
    ensures var r := up[base + [b] + l := FileObj(data)];
      Ready(r, denied, base, base + [b], top) && Confined(up, r, base + [b])
  {
    var root := base + [b];
    var p := root + l;
    assert p[|root|..] == l;
    assert root <= p;
    var r := up[p := FileObj(data)];
    forall x | x in r
      ensures x != [] && IsDir(r, Parent(x))
    {
      if x != p {
        assert IsDir(up, Parent(x));
      }
    }
  }

  /** A file entry of the tree writes the file's bytes at its place. */
  lemma FileStep(d: Disk, denied: set<Path>, t: string, b: string, top: Node, l: seq<string>, e: Entry)
    requires Ready(d, denied, Split(t), Split(t) + [b], top)
    requires !e.IsDirectory() && EntryPath(t, e.name) == Split(t) + [b] + l
    requires Lookup(top, l) == Some(File(e.data, true))
    ensures var r := ExtractEntry(d, denied, t, e);
      && r.ok && Ready(r.disk, denied, Split(t), Split(t) + [b], top) && Confined(d, r.disk, Split(t) + [b])
      && Present(r.disk, Split(t) + [b] + l, Lookup(top, l).value)
  {
    var p := Split(t) + [b] + l;
    ParentMade(d, denied, Split(t), b, top, l);
    var up := Mkdirs(d, denied, Parent(p));
    FileWritten(up, denied, Split(t), b, top, l, e.data);
    assert ExtractEntry(d, denied, t, e) == Extracted(up[p := FileObj(e.data)], true);
  }

  /** A directory entry of the tree makes the directory. */
  lemma DirStep(d: Disk, denied: set<Path>, t: string, b: string, top: Node, l: seq<string>, e: Entry)
    requires Ready(d, denied, Split(t), Split(t) + [b], top)
    requires e.IsDirectory() && EntryPath(t, e.name) == Split(t) + [b] + l
    requires Lookup(top, l).Some? && Lookup(top, l).value.Dir?
    ensures var r := ExtractEntry(d, denied, t, e);
      && r.ok && Ready(r.disk, denied, Split(t), Split(t) + [b], top) && Confined(d, r.disk, Split(t) + [b])
      && IsDir(r.disk, Split(t) + [b] + l)
  {
    MkdirsBelow(d, denied, Split(t), b, top, l);
  }

  /** An entry named by the path `b/l` is extracted to target/b/l. */
  lemma EntryAt(t: string, name: string, b: string, l: seq<string>)
    requires Split(name) == [b] + l
    ensures EntryPath(t, name) == Split(t) + [b] + l
  {
    EntryUnderTarget(t, name);
  }

  /** What was on the disk stays there while the disk keeps mirroring the tree. */
  lemma CoveredKept(d: Disk, d2: Disk, root: Path, top: Node, l: seq<string>, n: Node)
    requires Lookup(top, l) == Some(n) && root != []
    requires Covered(d, root + l, n) && Mirrors(d2, root, top)
    requires forall x :: x in d ==> x in d2
    ensures Covered(d2, root + l, n)
  {
    forall q | Lookup(n, q).Some?
      ensures Present(d2, root + l + q, Lookup(n, q).value)
    {
      var x := root + l + q;
      LookupAppend(top, l, q);
      assert x == root + (l + q);
      assert x[|root|..] == l + q;
      PresentKept(d, d2, x, Lookup(n, q).value);
    }
  }

  /** A node present on one disk is present on a later one that still holds it there. */
  lemma PresentKept(d: Disk, d2: Disk, x: Path, m: Node)
    requires Present(d, x, m) && x != []
    requires x in d2 && Agrees(d2[x], Some(m))
    ensures Present(d2, x, m)
  {
  }

  // ---------------------------------------------------------------------
  // A whole walk

  /** The replay of `r` started from `d` rebuilt `n`, found at `l` in `top`, at target/b/l. */
  ghost predicate Rebuilt(d: Disk, r: Extracted, denied: set<Path>, t: string, b: string, top: Node, l: seq<string>, n: Node) {
    && r.ok && Ready(r.disk, denied, Split(t), Split(t) + [b], top) && Confined(d, r.disk, Split(t) + [b])
    && Covered(r.disk, Split(t) + [b] + l, n)
  }

  /** A readable file's walk rebuilds the file. */
  lemma ReplayFile(d: Disk, denied: set<Path>, t: string, b: string, top: Node,
                   data: Bytes, name: string, p: string, l: seq<string>)
    requires Ready(d, denied, Split(t), Split(t) + [b], top)
    requires Lookup(top, l) == Some(File(data, true))
    requires ValidName(name) && Split(p + name) == [b] + l
    ensures Rebuilt(d, ExtractAll(d, denied, t, [Entry(p + name, data)]), denied, t, b, top, l, File(data, true))
  {
    var e := Entry(p + name, data);
    assert (p + name)[|p + name| - 1] == name[|name| - 1];
    assert [e][..0] == [];
    EntryAt(t, e.name, b, l);
    FileStep(d, denied, t, b, top, l, e);
    var r := ExtractEntry(d, denied, t, e);
    forall q | Lookup(File(data, true), q).Some?
      ensures Present(r.disk, Split(t) + [b] + l + q, Lookup(File(data, true), q).value)
    {
      assert q == [];
      assert Split(t) + [b] + l + q == Split(t) + [b] + l;
    }
  }

  /** A childless directory's walk rebuilds the directory. */
  lemma ReplayEmptyDir(d: Disk, denied: set<Path>, t: string, b: string, top: Node,
                       listable: bool, p: string, l: seq<string>)
    requires Ready(d, denied, Split(t), Split(t) + [b], top)
    requires Lookup(top, l) == Some(Dir([], listable))
    requires IsPrefix(p) && Split(p) == [b] + l
    ensures Rebuilt(d, ExtractAll(d, denied, t, [Entry(p, [])]), denied, t, b, top, l, Dir([], listable))
  {
    var e := Entry(p, []);
    assert [e][..0] == [];
    EntryAt(t, e.name, b, l);
    DirStep(d, denied, t, b, top, l, e);
    var r := ExtractEntry(d, denied, t, e);
    forall q | Lookup(Dir([], listable), q).Some?
      ensures Present(r.disk, Split(t) + [b] + l + q, Lookup(Dir([], listable), q).value)
    {
      assert q == [];
      assert Split(t) + [b] + l + q == Split(t) + [b] + l;
    }
  }

  /**
   The entries of the walk of node `n`, found at `l` in `top` and walked with
   entry path `p`, rebuild `n` at target/b/l.
   */
  lemma {:induction false} ReplayWalk(d: Disk, denied: set<Path>, t: string, b: string, top: Node,
                                      n: Node, name: string, p: string, l: seq<string>)
    requires Ready(d, denied, Split(t), Split(t) + [b], top)
    requires WellFormed(n) && Intact(n) && Lookup(top, l) == Some(n)
    requires n.File? ==> ValidName(name) && Split(p + name) == [b] + l
    requires n.Dir? ==> IsPrefix(p) && Split(p) == [b] + l
    ensures Rebuilt(d, ExtractAll(d, denied, t, Walk(n, name, p).entries), denied, t, b, top, l, n)
    decreases n, 2
  {
    match n
    case File(data, _) =>
      assert Walk(n, name, p).entries == [Entry(p + name, data)];
      ReplayFile(d, denied, t, b, top, data, name, p, l);
    case Dir(cs, listable) =>
      if cs == [] {
        assert Walk(n, name, p).entries == [Entry(p, [])];
        ReplayEmptyDir(d, denied, t, b, top, listable, p, l);
      } else {
        assert Walk(n, name, p) == WalkChildren(cs, p);
        ReplayDir(d, denied, t, b, top, n, p, l);
      }
  }

  /** A directory with children is rebuilt by the walks of its children. */
  lemma {:induction false} ReplayDir(d: Disk, denied: set<Path>, t: string, b: string, top: Node,
                                     n: Node, p: string, l: seq<string>)
    requires Ready(d, denied, Split(t), Split(t) + [b], top)
    requires n.Dir? && n.children != [] && WellFormed(n) && Intact(n) && Lookup(top, l) == Some(n)
    requires IsPrefix(p) && Split(p) == [b] + l
    ensures Rebuilt(d, ExtractAll(d, denied, t, WalkChildren(n.children, p).entries), denied, t, b, top, l, n)
    decreases n, 1
  {
    var cs := n.children;
    ReplayChildren(d, denied, t, b, top, n, p, l, |cs|);
    assert cs[..|cs|] == cs;
    var r := ExtractAll(d, denied, t, WalkChildren(cs, p).entries);
    DirCovered(r.disk, Split(t) + [b], l, n);
  }

  /** A directory with children is on the disk once each of its children is. */
  lemma DirCovered(dk: Disk, root: Path, l: seq<string>, n: Node)
    requires n.Dir? && n.children != [] && WellFormed(n) && Sound(dk)
    requires forall i :: 0 <= i < |n.children| ==> Covered(dk, root + l + [n.children[i].name], n.children[i].node)
    ensures Covered(dk, root + l, n)
  {
    var cs := n.children;
    forall q | Lookup(n, q).Some?
      ensures Present(dk, root + l + q, Lookup(n, q).value)
    {
      if q == [] {
        var x := root + l + [cs[0].name];
        assert Covered(dk, x, cs[0].node);
        assert Lookup(cs[0].node, []) == Some(cs[0].node);
        assert x + [] == x;
        assert x in dk;
        assert Parent(x) == root + l + q;
      } else {
        var k := FindChild(cs, q[0]);
        assert root + l + q == root + l + [cs[k].name] + q[1..];
        assert Covered(dk, root + l + [cs[k].name], cs[k].node);
      }
    }
  }

  /** The children rebuilt on one disk stay rebuilt on a later one that still mirrors the tree. */
  lemma ChildrenKept(d1: Disk, d2: Disk, root: Path, top: Node, l: seq<string>, n: Node, j: nat)
    requires n.Dir? && WellFormed(n) && Lookup(top, l) == Some(n) && j <= |n.children| && root != []
    requires forall i :: 0 <= i < j ==> Covered(d1, root + l + [n.children[i].name], n.children[i].node)
    requires Mirrors(d2, root, top) && forall x :: x in d1 ==> x in d2
    ensures forall i :: 0 <= i < j ==> Covered(d2, root + l + [n.children[i].name], n.children[i].node)
  {
    forall i | 0 <= i < j
      ensures Covered(d2, root + l + [n.children[i].name], n.children[i].node)
    {
      var c := n.children[i];
      ChildAt(top, l, n.children, n.listable, i);
      assert root + l + [c.name] == root + (l + [c.name]);
      CoveredKept(d1, d2, root, top, l + [c.name], c.node);
    }
  }

  /** The entry path of a child names the child's place. */
  lemma ChildNaming(p: string, c: Child, b: string, l: seq<string>)
    requires IsPrefix(p) && Split(p) == [b] + l && ValidName(c.name)
    ensures c.node.File? ==> Split(p + c.name) == [b] + (l + [c.name])
    ensures c.node.Dir? ==> IsPrefix(ChildPrefix(p, c)) && Split(ChildPrefix(p, c)) == [b] + (l + [c.name])
  {
    SplitPrefixName(p, c.name);
    if c.node.Dir? {
      SplitTrailing(p + c.name);
    }
  }

  /** With every child intact, the walk of `j` children is that of `j - 1` followed by child `j - 1`. */
  lemma ChildrenSnoc(cs: seq<Child>, p: string, j: nat)
    requires 0 < j <= |cs| && forall i :: 0 <= i < |cs| ==> Intact(cs[i].node)
    ensures WalkChildren(cs[..j], p) == Walked(WalkChildren(cs[..j - 1], p).entries + WalkChild(cs[j - 1], p).entries, true)
  {
    var c := cs[j - 1];
    assert cs[..j][..j - 1] == cs[..j - 1] && cs[..j][j - 1] == c;
    forall i | 0 <= i < j
      ensures ReachableReadable(cs[..j][i].node)
    {
      IntactReachable(cs[i].node);
    }
    WalkChildrenOk(cs[..j], p);
    WalkChildrenOk(cs[..j - 1], p);
  }

  /** The replay `r` started from `d` rebuilt the first `j` children of directory `n`, found at `l` in `top`. */
  ghost predicate ChildrenRebuilt(d: Disk, r: Extracted, denied: set<Path>, t: string, b: string, top: Node,
                                  n: Node, l: seq<string>, j: nat)
    requires n.Dir? && j <= |n.children|
  {
    && r.ok && Ready(r.disk, denied, Split(t), Split(t) + [b], top) && Confined(d, r.disk, Split(t) + [b])
    && forall i :: 0 <= i < j ==> Covered(r.disk, Split(t) + [b] + l + [n.children[i].name], n.children[i].node)
  }

  /** Rebuilding child `j - 1` after the children before it rebuilds the first `j` children. */
  lemma ChildStep(d: Disk, d1: Disk, d2: Disk, root: Path, top: Node, n: Node, l: seq<string>, j: nat)
    requires n.Dir? && WellFormed(n) && Lookup(top, l) == Some(n) && 0 < j <= |n.children| && root != []
    requires Confined(d, d1, root) && Confined(d1, d2, root) && Mirrors(d2, root, top)
    requires forall i :: 0 <= i < j - 1 ==> Covered(d1, root + l + [n.children[i].name], n.children[i].node)
    requires Covered(d2, root + (l + [n.children[j - 1].name]), n.children[j - 1].node)
    ensures Confined(d, d2, root)
    ensures forall i :: 0 <= i < j ==> Covered(d2, root + l + [n.children[i].name], n.children[i].node)
  {
    var c := n.children[j - 1];
    assert root + (l + [c.name]) == root + l + [c.name];
    ChildrenKept(d1, d2, root, top, l, n, j - 1);
    ConfinedTrans(d, d1, d2, root);
  }

  /** The first `j` children of directory `n` at `l`, replayed, are each rebuilt at their place. */
  lemma {:induction false} ReplayChildren(d: Disk, denied: set<Path>, t: string, b: string, top: Node,
                                          n: Node, p: string, l: seq<string>, j: nat)
    requires Ready(d, denied, Split(t), Split(t) + [b], top)
    requires n.Dir? && WellFormed(n) && Intact(n) && Lookup(top, l) == Some(n)
    requires IsPrefix(p) && Split(p) == [b] + l && j <= |n.children|
    ensures WalkChildren(n.children[..j], p).ok
    ensures ChildrenRebuilt(d, ExtractAll(d, denied, t, WalkChildren(n.children[..j], p).entries), denied, t, b, top, n, l, j)
    decreases n, 0, j
  {
    var cs := n.children;
    if j == 0 {
      assert cs[..0] == [];
    } else {
      var c := cs[j - 1];
      ReplayChildren(d, denied, t, b, top, n, p, l, j - 1);
      var w1 := WalkChildren(cs[..j - 1], p);
      var r1 := ExtractAll(d, denied, t, w1.entries);
      ChildAt(top, l, cs, n.listable, j - 1);
      ChildNaming(p, c, b, l);
      assert c in cs;
      ReplayWalk(r1.disk, denied, t, b, top, c.node, c.name, ChildPrefix(p, c), l + [c.name]);
      var w2 := WalkChild(c, p);
      ChildrenSnoc(cs, p, j);
      ExtractConcat(d, denied, t, w1.entries, w2.entries);
      var r := ExtractAll(r1.disk, denied, t, w2.entries);
      ChildStep(d, r1.disk, r.disk, Split(t) + [b], top, n, l, j);
    }
  }

  /** Confinement below the same root composes. */
  lemma ConfinedTrans(d1: Disk, d2: Disk, d3: Disk, root: Path)
    requires Confined(d1, d2, root) && Confined(d2, d3, root)
    ensures Confined(d1, d3, root)
  {
  }

  // ---------------------------------------------------------------------
  // The round trip

  /**
   Extracting the archive of one intact, well-formed source, whose name is
   neither "." nor "..", below a target directory, where nothing is yet at target/name and nothing there is
   refused, goes through and rebuilds exactly the source at target/name:
   every file with its bytes, every directory, and nothing else there; the
   rest of the disk is left as it was.
   */
  lemma RoundTrip(d: Disk, denied: set<Path>, t: string, src: string, node: Node)
    requires WellFormed(node) && Intact(node) && BaseName(src) != ""
    requires BaseName(src) != "." && BaseName(src) != ".."
    requires Sound(d) && IsDir(d, Split(t))
    requires forall x :: x in d ==> !(Split(t) + [BaseName(src)] <= x)
    requires forall x :: x in denied ==> !(Split(t) + [BaseName(src)] <= x)
    ensures var r := ExtractAll(d, denied, t, WalkSource(src, node).entries);
      var root := Split(t) + [BaseName(src)];
      && r.ok && Sound(r.disk)
      && Mirrors(r.disk, root, node) && Covered(r.disk, root, node) && Confined(d, r.disk, root)
  {
    var b := BaseName(src);
    var root := Split(t) + [b];
    ReadyAtStart(d, denied, Split(t), root, node);
    RootNaming(src, node);
    assert Lookup(node, []) == Some(node);
    ReplayWalk(d, denied, t, b, node, node, b, RootPrefix(src, node), []);
    assert root + [] == root;
  }

  /** A disk with nothing yet at or below `root` is ready for the replay. */
  lemma ReadyAtStart(d: Disk, denied: set<Path>, base: Path, root: Path, top: Node)
    requires Sound(d) && IsDir(d, base)
    requires forall x :: x in d ==> !(root <= x)
    requires forall x :: x in denied ==> !(root <= x)
    ensures Ready(d, denied, base, root, top)
  {
  }

  /** The root entry path of a source names the source's own place. */
  lemma RootNaming(src: string, node: Node)
    requires BaseName(src) != ""
    ensures var b := BaseName(src);
      && (node.File? ==> ValidName(b) && Split(RootPrefix(src, node) + b) == [b] + [])
      && (node.Dir? ==> IsPrefix(RootPrefix(src, node)) && Split(RootPrefix(src, node)) == [b] + [])
  {
    var b := BaseName(src);
    SplitName(b);
    assert "" + b == b;
    SplitTrailing(b);
  }

  /**
   zip followed by unzip: when zipDir finishes the archive of an intact,
   well-formed source whose name is neither "." nor "..", unzip of that archive returns true and leaves the
   source rebuilt at target/name. The target is an existing directory, or
   nothing on the way to it stops mkdirs from making it; outside
   target/name, nothing present changes and the only paths added are the
   directories made on the way to the target.
   */
  lemma ZipThenUnzip(fs: Sources, src: string, zipFileName: JString, d: Disk, denied: set<Path>, t: string)
    requires ZipDirRun(fs, Some(src), zipFileName, true).archive.Finished?
    requires WellFormed(fs[src]) && Intact(fs[src]) && BaseName(src) != ""
    requires BaseName(src) != "." && BaseName(src) != ".."
    requires Sound(d) && (IsDir(d, Split(t)) || Clear(d, denied, Split(t)))
    requires forall x :: x in d ==> !(Split(t) + [BaseName(src)] <= x)
    requires forall x :: x in denied ==> !(Split(t) + [BaseName(src)] <= x)
    ensures var r := UnzipRun(d, denied, t, ZipDirRun(fs, Some(src), zipFileName, true).archive.entries);
      var root := Split(t) + [BaseName(src)];
      && r.ok && Mirrors(r.disk, root, fs[src]) && Covered(r.disk, root, fs[src])
      && (forall x :: x in d ==> x in r.disk && (!(root <= x) ==> r.disk[x] == d[x]))
      && (forall x :: x in r.disk && x !in d && !(root <= x) ==> x <= Split(t) && r.disk[x] == DirObj)
      && (IsDir(d, Split(t)) ==> Confined(d, r.disk, root))
  {
    var root := Split(t) + [BaseName(src)];
    SplitTrailing(t);
    var made := Mkdirs(d, denied, Split(t));
    assert Mkdirs(d, denied, Split(t + [Separator])) == made;
    if !IsDir(d, Split(t)) {
      MkdirsMakesDir(d, denied, Split(t));
    }
    MkdirsSound(d, denied, Split(t));
    forall x | x in made
      ensures !(root <= x)
    {
      if x !in d {
        assert |x| <= |Split(t)| < |root|;
      }
    }
    RoundTrip(made, denied, t, src, fs[src]);
  }
}

=== FILE: streams.dfy ===
/**
 Stand-ins for the java.io and java.util.zip streams the plugin uses. The
 ZIP container and its DEFLATE codec are abstracted away: an archive is the
 sequence of its entries.
 */
module Streams {
  import opened Wrappers
  import opened Paths
  import opened FileTree

  /** BUFFER_LEN: the size of the copy buffer of both pipelines. */
  const BufferLen: nat := 2048

  /** A ZIP entry: its name and its (uncompressed) payload. */
  datatype Entry = Entry(name: string, data: Bytes) {
    /** ZipEntry.isDirectory(): the name ends with a separator. */
    predicate IsDirectory() {
      |name| > 0 && name[|name| - 1] == Separator
    }
  }

  /** The entry names of an archive, in archive order. */
  function Names(es: seq<Entry>): (ns: seq<string>)
    ensures |ns| == |es|
    ensures forall i :: 0 <= i < |es| ==> ns[i] == es[i].name
  {
    if es == [] then [] else Names(es[..|es| - 1]) + [es[|es| - 1].name]
  }

  /** How many entries of `es` are named `x`. */
  function CountName(es: seq<Entry>, x: string): nat {
    multiset(Names(es))[x]
  }

  lemma NamesConcat(a: seq<Entry>, b: seq<Entry>)
    ensures Names(a + b) == Names(a) + Names(b)
  {
  }

  lemma CountConcat(a: seq<Entry>, b: seq<Entry>, x: string)
    ensures CountName(a + b, x) == CountName(a, x) + CountName(b, x)
  {
    NamesConcat(a, b);
  }

  /** Chunks of bytes joined in order. */
  function Flatten(chunks: seq<Bytes>): Bytes {
    if chunks == [] then [] else Flatten(chunks[..|chunks| - 1]) + chunks[|chunks| - 1]
  }

  /** One more chunk joins on at the end. */
  lemma FlattenSnoc(chunks: seq<Bytes>, c: Bytes)
    ensures Flatten(chunks + [c]) == Flatten(chunks) + c
  {
    assert (chunks + [c])[..|chunks|] == chunks;
  }

  /** Writing the next `k` bytes of `data` after its first `w` extends the entry to the first `w + k`. */
  lemma AppendTwice(es: seq<Entry>, data: Bytes, w: nat, k: nat)
    requires es != [] && w + k <= |data|
    ensures AppendToLast(AppendToLast(es, data[..w]), data[w..w + k]) == AppendToLast(es, data[..w + k])
  {
    assert data[..w + k] == data[..w] + data[w..w + k];
    var last := es[|es| - 1];
    assert last.data + data[..w] + data[w..w + k] == last.data + (data[..w] + data[w..w + k]);
  }

  /** Writing nothing leaves the entries as they are. */
  lemma AppendNothing(es: seq<Entry>)
    requires es != []
    ensures AppendToLast(es, []) == es
  {
    assert es[|es| - 1].data + [] == es[|es| - 1].data;
  }

  /** The bytes written to a just-begun entry are its payload. */
  lemma AppendToEmpty(es: seq<Entry>, name: string, data: Bytes)
    ensures AppendToLast(es + [Entry(name, [])], data) == es + [Entry(name, data)]
  {
    assert (es + [Entry(name, [])])[..|es|] == es;
    assert [] + data == data;
  }

  /** The last entry's payload extended by `bytes`. */
  function AppendToLast(es: seq<Entry>, bytes: Bytes): (r: seq<Entry>)
    requires es != []
    ensures |r| == |es| && r[..|r| - 1] == es[..|es| - 1]
    ensures r[|r| - 1] == Entry(es[|es| - 1].name, es[|es| - 1].data + bytes)
  {
    es[..|es| - 1] + [Entry(es[|es| - 1].name, es[|es| - 1].data + bytes)]
  }

  /**
   An input byte stream (a FileInputStream, or the payload of the current
   entry of a ZipInputStream): the bytes it holds and how many were read.
   */
  class ByteSource {
    const data: Bytes
    var pos: nat

    ghost predicate Valid()
      reads this
    {
      pos <= |data|
    }

    constructor (data: Bytes)
      ensures Valid() && this.data == data && pos == 0
    {
      this.data := data;
      pos := 0;
    }

    /**
     read(byte[]): -1 at the end of the stream, otherwise a positive number
     of bytes, at most the buffer's length, copied to the start of the buffer.
     Callers may rely on no particular chunk size.
     */
    method Read(buf: array<Byte>) returns (n: int)
      requires Valid() && buf.Length > 0
      modifies this, buf
      ensures Valid()
      ensures n == -1 <==> old(pos) == |data|
      ensures n == -1 ==> pos == old(pos)
      ensures n != -1 ==> 0 < n <= buf.Length && pos == old(pos) + n && buf[..n] == data[old(pos)..pos]
    {
      if pos == |data| {
        return -1;
      }
      n := if |data| - pos < buf.Length then |data| - pos else buf.Length;
      forall i | 0 <= i < n {
        buf[i] := data[pos + i];
      }
      pos := pos + n;
    }
  }

  /**
   A ZipOutputStream: the entries begun so far, in order; while `open`, the
   last one receives the bytes written.
   */
  class ZipWriter {
    var entries: seq<Entry>
    var open: bool

    ghost predicate Valid()
      reads this
    {
      open ==> entries != []
    }

    constructor ()
      ensures Valid() && entries == [] && !open
    {
      entries := [];
      open := false;
    }

    /** putNextEntry: closes the current entry, if any, and begins a new one. */
    method PutNextEntry(name: string)
      requires Valid()
      modifies this
      ensures Valid() && open
      ensures entries == old(entries) + [Entry(name, [])]
    {
      entries := entries + [Entry(name, [])];
      open := true;
    }

    /** write(buf, off, len): appends bytes to the current entry. */
    method Write(buf: array<Byte>, off: nat, len: nat)
      requires Valid() && open && off + len <= buf.Length
      modifies this
      ensures Valid() && open
      ensures entries == AppendToLast(old(entries), buf[off..off + len])
    {
      entries := AppendToLast(entries, buf[off..off + len]);
    }

    /**
     close: finishes the archive. Android's ZipOutputStream refuses to finish
     an archive without entries (ZipException "No entries"): `ok` is false then.
     */
    method Close() returns (ok: bool)
      requires Valid()
      modifies this
      ensures Valid() && !open && entries == old(entries)
      ensures ok <==> entries != []
    {
      open := false;
      ok := entries != [];
    }

    /** closeEntry */
    method CloseEntry()
      requires Valid()
      modifies this
      ensures Valid() && !open && entries == old(entries)
    {
      open := false;
    }
  }

  /** A ZipInputStream over a given archive: the entries and how many were read. */
  class ZipReader {
    const entries: seq<Entry>
    var next: nat

    ghost predicate Valid()
      reads this
    {
      next <= |entries|
    }

    constructor (entries: seq<Entry>)
      ensures Valid() && this.entries == entries && next == 0
    {
      this.entries := entries;
      next := 0;
    }

    /**
     getNextEntry: the name of the next entry, or null at the end of the
     archive, together with a stream over that entry's payload.
     */
    method GetNextEntry() returns (name: Option<string>, body: ByteSource)
      requires Valid()
      modifies this
      ensures Valid() && fresh(body) && body.Valid() && body.pos == 0
      ensures old(next) == |entries| ==> name == None && next == old(next)
      ensures old(next) < |entries| ==>
        && name == Some(entries[old(next)].name)
        && body.data == entries[old(next)].data
        && next == old(next) + 1
    {
      if next == |entries| {
        name := None;
        body := new ByteSource([]);
      } else {
        name := Some(entries[next].name);
        body := new ByteSource(entries[next].data);
        next := next + 1;
      }
    }
  }
}

=== FILE: walk.dfy ===
/**
 The entries compressDir emits for a file tree, as a function of the tree:
 the pure core of the archiver, and what it promises about entry names.
 */
module TreeWalk {
  import opened Wrappers
  import opened Paths
  import opened FileTree
  import opened Streams

  /**
   What a walk leaves in the archive stream: the entries begun, in order,
   and whether it returned normally (`ok` is false when a file could not be
   opened: FileNotFoundException, after that file's entry was begun).
   */
  datatype Walked = Walked(entries: seq<Entry>, ok: bool)

  /** The second part runs only if the first returned normally. */
  function Then(a: Walked, b: Walked): Walked {
    if a.ok then Walked(a.entries + b.entries, b.ok) else a
  }

  /**
   writeToZip: a directory becomes an entry named by the entry path; a file
   becomes an entry named entry path + its name, carrying its bytes.
   */
  function WriteEntry(node: Node, name: string, entryPath: string): (r: Walked)
    ensures |r.entries| == 1 && entryPath <= r.entries[0].name
    ensures r.ok <==> node.Dir? || node.readable
    ensures r.entries[0].data == if r.ok && node.File? then node.data else []
  {
    match node
    case Dir(_, _) => Walked([Entry(entryPath, [])], true)
    case File(data, readable) =>
      if readable then Walked([Entry(entryPath + name, data)], true)
      else Walked([Entry(entryPath + name, [])], false)
  }

  /** The entry path a child of a directory is walked with. */
  function ChildPrefix(entryPath: string, c: Child): string {
    if c.node.Dir? then entryPath + c.name + [Separator] else entryPath
  }

  /** compressDir(node, entryPath), `name` being the node's File.getName(). */
  function Walk(node: Node, name: string, entryPath: string): (r: Walked)
    ensures r.entries != []
    ensures !r.ok ==> r.entries[|r.entries| - 1].data == []
    decreases node
  {
    match node
    case File(_, _) => WriteEntry(node, name, entryPath)
    case Dir(cs, listable) =>
      if !listable || |cs| == 0 then WriteEntry(node, name, entryPath)
      else WalkChildren(cs, entryPath)
  }

  /** The for-loop of compressDir over a listing. */
  function WalkChildren(cs: seq<Child>, entryPath: string): (r: Walked)
    ensures cs != [] <==> r.entries != []
    ensures !r.ok ==> r.entries != [] && r.entries[|r.entries| - 1].data == []
    decreases cs
  {
    if cs == [] then Walked([], true)
    else Then(WalkChildren(cs[..|cs| - 1], entryPath), WalkChild(cs[|cs| - 1], entryPath))
  }

  /** One iteration of that loop. */
  function WalkChild(c: Child, entryPath: string): (r: Walked)
    ensures r.entries != []
    ensures !r.ok ==> r.entries[|r.entries| - 1].data == []
    decreases c
  {
    Walk(c.node, c.name, ChildPrefix(entryPath, c))
  }

  /** The root entry path of a source: `name/` for a directory, empty for a file. */
  function RootPrefix(path: string, node: Node): (p: string)
    ensures IsPrefix(p) && (p == "" <==> node.File?)
  {
    if node.Dir? then BaseName(path) + [Separator] else ""
  }

  /** The entries one source path contributes to an archive. */
  function WalkSource(path: string, node: Node): (r: Walked)
    ensures r.entries != []
    ensures node.File? ==> |r.entries| == 1 && r.entries[0].name == BaseName(path)
  {
    Walk(node, BaseName(path), RootPrefix(path, node))
  }

  /** Entry name of the file at component path `path` below `entryPath`. */
  function FileEntryName(entryPath: string, path: seq<string>): string
    requires path != []
  {
    Nest(entryPath, path[..|path| - 1]) + path[|path| - 1]
  }

  /** `x` is `stem` itself or lies below it: what follows `stem` starts with a separator. */
  predicate Below(x: string, stem: string) {
    stem <= x && (|x| == |stem| || x[|stem|] == Separator)
  }

  // ---------------------------------------------------------------------
  // A source's walk is its root seen as a child of nothing

  lemma WalkSourceAsChild(path: string, node: Node)
    ensures WalkSource(path, node) == WalkChild(Child(BaseName(path), node), "")
  {
    assert "" + BaseName(path) + [Separator] == BaseName(path) + [Separator];
  }

  /** A single readable file is archived as one entry under its bare name. */
  lemma SingleFileSource(path: string, data: Bytes)
    ensures WalkSource(path, File(data, true)) == Walked([Entry(BaseName(path), data)], true)
  {
    assert "" + BaseName(path) == BaseName(path);
  }

  /** An empty or unlistable directory source is archived as the one entry `name/`. */
  lemma EmptyDirSource(path: string, cs: seq<Child>, listable: bool)
    requires cs == [] || !listable
    ensures WalkSource(path, Dir(cs, listable)) == Walked([Entry(BaseName(path) + [Separator], [])], true)
  {
  }

  // ---------------------------------------------------------------------
  // Success

  /** The walk returns normally exactly when every file it reaches can be opened. */
  lemma {:induction false} WalkOk(node: Node, name: string, entryPath: string)
    ensures Walk(node, name, entryPath).ok <==> ReachableReadable(node)
    decreases node
  {
    match node
    case File(_, _) =>
    case Dir(cs, listable) =>
      if listable && |cs| > 0 {
        WalkChildrenOk(cs, entryPath);
      }
  }

  lemma {:induction false} WalkChildrenOk(cs: seq<Child>, entryPath: string)
    ensures WalkChildren(cs, entryPath).ok <==> forall i :: 0 <= i < |cs| ==> ReachableReadable(cs[i].node)
    decreases cs
  {
    if cs != [] {
      var init, last := cs[..|cs| - 1], cs[|cs| - 1];
      WalkChildrenOk(init, entryPath);
      WalkOk(last.node, last.name, ChildPrefix(entryPath, last));
      assert forall i :: 0 <= i < |init| ==> init[i] == cs[i];
    }
  }

  lemma IntactReachable(node: Node)
    requires Intact(node)
    ensures ReachableReadable(node)
  {
  }

  // ---------------------------------------------------------------------
  // Shape of every entry

  /**
   Every entry of a child's walk is named below `entryPath + name`, and a
   directory entry (one whose name ends in a separator) carries no payload.
   */
  lemma {:induction false} ChildEntriesBelow(c: Child, entryPath: string)
    requires ValidName(c.name)
    requires WellFormed(c.node)
    ensures forall e | e in WalkChild(c, entryPath).entries ::
      Below(e.name, entryPath + c.name) && (e.IsDirectory() ==> e.data == [])
    decreases c
  {
    var stem := entryPath + c.name;
    match c.node
    case File(_, _) =>
      assert c.name[|c.name| - 1] != Separator;
    case Dir(cs, listable) =>
      var p := stem + [Separator];
      assert ChildPrefix(entryPath, c) == p;
      if listable && |cs| > 0 {
        ChildrenEntriesBelow(cs, p);
        forall e | e in WalkChildren(cs, p).entries
          ensures Below(e.name, stem)
        {
          assert p <= e.name;
          assert e.name[|stem|] == p[|stem|];
        }
      } else {
        assert stem <= p;
      }
  }

  lemma {:induction false} ChildrenEntriesBelow(cs: seq<Child>, entryPath: string)
    requires forall i :: 0 <= i < |cs| ==> ValidName(cs[i].name) && WellFormed(cs[i].node)
    ensures forall e | e in WalkChildren(cs, entryPath).entries ::
      entryPath <= e.name && |e.name| > |entryPath| && (e.IsDirectory() ==> e.data == [])
    decreases cs
  {
    if cs != [] {
      var init, last := cs[..|cs| - 1], cs[|cs| - 1];
      ChildrenEntriesBelow(init, entryPath);
      ChildEntriesBelow(last, entryPath);
      forall e | e in WalkChild(last, entryPath).entries
        ensures entryPath <= e.name && |e.name| > |entryPath|
      {
        assert entryPath <= entryPath + last.name;
      }
    }
  }

  /** Length of the leading name of `t`: up to its first separator, or all of it. */
  function LeadLength(t: string): nat {
    if Separator in t then FirstSep(t) else |t|
  }

  lemma LeadLengthOf(a: string, t: string)
    requires Separator !in a
    requires t == [] || t[0] == Separator
    ensures LeadLength(a + t) == |a|
  {
    if t != [] {
      assert (a + t)[..|a|] == a;
      assert (a + t)[|a|] == Separator;
      FirstSepAt(a + t, |a|);
    } else {
      assert a + t == a;
    }
  }

  /** Two names below distinct listed names of one directory are distinct. */
  lemma BelowDistinct(x: string, s: string, a: string, b: string)
    requires ValidName(a) && ValidName(b)
    requires Below(x, s + a) && Below(x, s + b)
    ensures a == b
  {
    var t := x[|s|..];
    assert t == a + x[|s + a|..];
    assert t == b + x[|s + b|..];
    LeadLengthOf(a, x[|s + a|..]);
    LeadLengthOf(b, x[|s + b|..]);
    assert a == t[..|a|] == b;
  }

  /** A nested name begins with the prefix it is nested in. */
  lemma {:induction false} NestExtends(prefix: string, dirs: seq<string>)
    ensures prefix <= Nest(prefix, dirs)
    decreases |dirs|
  {
    if dirs != [] {
      NestExtends(prefix + dirs[0] + [Separator], dirs[1..]);
    }
  }

  /** The name of a directory entry reached through the child named `n` lies below it. */
  lemma DirNameBelow(p: string, n: string, r: seq<string>)
    ensures Nest(p, [n] + r) == Nest(p + n + [Separator], r)
    ensures Below(Nest(p, [n] + r), p + n)
  {
    assert ([n] + r)[1..] == r;
    NestExtends(p + n + [Separator], r);
    assert (p + n + [Separator])[|p + n|] == Separator;
  }

  /** The name of a file entry reached through the child named `n` lies below it. */
  lemma FileNameBelow(p: string, n: string, r: seq<string>)
    ensures r != [] ==> FileEntryName(p, [n] + r) == FileEntryName(p + n + [Separator], r)
    ensures Below(FileEntryName(p, [n] + r), p + n)
  {
    var path := [n] + r;
    if r == [] {
      assert path[..0] == [];
    } else {
      assert path[..|path| - 1] == [n] + r[..|r| - 1];
      assert ([n] + r[..|r| - 1])[1..] == r[..|r| - 1];
      var q := p + n + [Separator];
      NestExtends(q, r[..|r| - 1]);
      var x := FileEntryName(p, path);
      assert q <= x;
      assert x[|p + n|] == q[|p + n|];
    }
  }

  // ---------------------------------------------------------------------
  // Counting names among the children of one directory

  /**
   A name below the listed name `n` occurs in a directory's walk exactly as
   often as in the walk of the child named `n` (and never, if there is none).
   */
  lemma {:induction false} CountInChildren(cs: seq<Child>, p: string, n: string, x: string)
    requires WellFormed(Dir(cs, true))
    requires forall i :: 0 <= i < |cs| ==> ReachableReadable(cs[i].node)
    requires ValidName(n) && Below(x, p + n)
    ensures var k := FindChild(cs, n);
      CountName(WalkChildren(cs, p).entries, x) == if k < |cs| then CountName(WalkChild(cs[k], p).entries, x) else 0
    decreases cs
  {
    if cs != [] {
      var init := cs[..|cs| - 1];
      InitOfListing(cs, p);
      assert forall i :: 0 <= i < |init| ==> init[i] == cs[i];
      CountInChildren(init, p, n, x);
      CountStep(cs, p, n, x);
    }
  }

  /** The step of CountInChildren: one more child, named `n` or not. */
  lemma CountStep(cs: seq<Child>, p: string, n: string, x: string)
    requires cs != [] && WellFormed(Dir(cs, true))
    requires ValidName(n) && Below(x, p + n)
    requires WalkChildren(cs, p).entries == WalkChildren(cs[..|cs| - 1], p).entries + WalkChild(cs[|cs| - 1], p).entries
    requires var init := cs[..|cs| - 1]; var k := FindChild(init, n);
      CountName(WalkChildren(init, p).entries, x) == if k < |init| then CountName(WalkChild(init[k], p).entries, x) else 0
    ensures var k := FindChild(cs, n);
      CountName(WalkChildren(cs, p).entries, x) == if k < |cs| then CountName(WalkChild(cs[k], p).entries, x) else 0
  {
    var init, last := cs[..|cs| - 1], cs[|cs| - 1];
    CountConcat(WalkChildren(init, p).entries, WalkChild(last, p).entries, x);
    if last.name != n {
      CountOtherChild(last, p, n, x);
      FindChildInit(cs, n);
      var k := FindChild(init, n);
      if k < |init| {
        assert init[k] == cs[k];
      }
    } else {
      FindChildLast(cs, n);
    }
  }

  /** Dropping the last child keeps a listing well-formed and its walk returning normally. */
  lemma InitOfListing(cs: seq<Child>, p: string)
    requires cs != [] && WellFormed(Dir(cs, true))
    requires forall i :: 0 <= i < |cs| ==> ReachableReadable(cs[i].node)
    ensures WellFormed(Dir(cs[..|cs| - 1], true))
    ensures WalkChildren(cs, p).entries == WalkChildren(cs[..|cs| - 1], p).entries + WalkChild(cs[|cs| - 1], p).entries
  {
    var init := cs[..|cs| - 1];
    assert forall i :: 0 <= i < |init| ==> init[i] == cs[i];
    WalkChildrenOk(init, p);
  }

  /** A name below the listed name `n` is not in the walk of a child with another name. */
  lemma CountOtherChild(c: Child, p: string, n: string, x: string)
    requires ValidName(c.name) && WellFormed(c.node) && c.name != n
    requires ValidName(n) && Below(x, p + n)
    ensures CountName(WalkChild(c, p).entries, x) == 0
  {
    ChildEntriesBelow(c, p);
    forall e | e in WalkChild(c, p).entries ensures e.name != x {
      if e.name == x {
        BelowDistinct(x, p, c.name, n);
      }
    }
    assert x !in Names(WalkChild(c, p).entries);
  }

  lemma FindChildInit(cs: seq<Child>, n: string)
    requires cs != [] && cs[|cs| - 1].name != n
    ensures FindChild(cs, n) == FindChild(cs[..|cs| - 1], n) || (FindChild(cs, n) == |cs| && FindChild(cs[..|cs| - 1], n) == |cs| - 1)
  {
    var k := FindChild(cs, n);
    var init := cs[..|cs| - 1];
    var j := FindChild(init, n);
    assert forall i :: 0 <= i < |init| ==> init[i] == cs[i];
    if j < |init| {
      assert k <= j;
      assert k >= j;
    } else {
      assert forall i :: 0 <= i < |cs| ==> cs[i].name != n;
    }
  }

  lemma FindChildLast(cs: seq<Child>, n: string)
    requires cs != [] && cs[|cs| - 1].name == n
    requires forall i, j :: 0 <= i < j < |cs| ==> cs[i].name != cs[j].name
    ensures FindChild(cs, n) == |cs| - 1 && FindChild(cs[..|cs| - 1], n) == |cs| - 1
  {
    var init := cs[..|cs| - 1];
    assert forall i :: 0 <= i < |init| ==> init[i] == cs[i] && cs[i].name != n;
  }

  /** With every reachable file readable, a directory's walk holds each child's entries. */
  lemma {:induction false} ChildIncluded(cs: seq<Child>, p: string, k: nat)
    requires k < |cs|
    requires forall i :: 0 <= i < |cs| ==> ReachableReadable(cs[i].node)
    ensures forall e | e in WalkChild(cs[k], p).entries :: e in WalkChildren(cs, p).entries
    decreases cs
  {
    var init, last := cs[..|cs| - 1], cs[|cs| - 1];
    assert forall i :: 0 <= i < |init| ==> init[i] == cs[i];
    WalkChildrenOk(init, p);
    if k < |init| {
      ChildIncluded(init, p, k);
    }
  }

  // ---------------------------------------------------------------------
  // Files, directories and leaves

  /**
   Every regular file of an intact tree gives exactly one entry, named by its
   path below the entry path, and that entry carries the file's bytes.
   */
  lemma {:induction false} FileEntryOnce(c: Child, p: string, r: seq<string>, d: Bytes, readable: bool)
    requires ValidName(c.name) && WellFormed(c.node) && Intact(c.node)
    requires Lookup(c.node, r) == Some(File(d, readable))
    ensures CountName(WalkChild(c, p).entries, FileEntryName(p, [c.name] + r)) == 1
    ensures Entry(FileEntryName(p, [c.name] + r), d) in WalkChild(c, p).entries
    decreases c
  {
    if r == [] {
      assert ([c.name] + r)[..0] == [];
    } else {
      var Dir(cs, _) := c.node;
      var q := p + c.name + [Separator];
      var k := FindChild(cs, r[0]);
      var x := FileEntryName(p, [c.name] + r);
      FileNameBelow(p, c.name, r);
      assert r == [r[0]] + r[1..];
      FileNameBelow(q, r[0], r[1..]);
      assert x == FileEntryName(q, [cs[k].name] + r[1..]);
      IntactReachable(c.node);
      CountInChildren(cs, q, r[0], x);
      FileEntryOnce(cs[k], q, r[1..], d, readable);
      ChildIncluded(cs, q, k);
    }
  }

  /**
   A directory of an intact tree gives an entry of its own, named by its path
   below the entry path and ending in a separator, exactly once if it has no
   children and never if it has some.
   */
  lemma {:induction false} DirEntryCount(c: Child, p: string, r: seq<string>, cs': seq<Child>, listable: bool)
    requires ValidName(c.name) && WellFormed(c.node) && Intact(c.node)
    requires Lookup(c.node, r) == Some(Dir(cs', listable))
    ensures CountName(WalkChild(c, p).entries, Nest(p, [c.name] + r)) == if cs' == [] then 1 else 0
    decreases c
  {
    var Dir(cs, _) := c.node;
    var q := p + c.name + [Separator];
    var x := Nest(p, [c.name] + r);
    if r == [] {
      OwnDirEntry(c, p);
      assert [c.name] + r == [c.name];
    } else {
      DirNameBelow(p, c.name, r);
      var k := FindChild(cs, r[0]);
      assert r == [r[0]] + r[1..];
      DirNameBelow(q, r[0], r[1..]);
      assert x == Nest(q, [cs[k].name] + r[1..]);
      IntactReachable(c.node);
      CountInChildren(cs, q, r[0], x);
      DirEntryCount(cs[k], q, r[1..], cs', listable);
    }
  }

  /** A directory's own entry `p + name/` is there exactly when it has no children. */
  lemma OwnDirEntry(c: Child, p: string)
    requires ValidName(c.name) && WellFormed(c.node) && c.node.Dir? && c.node.listable
    ensures CountName(WalkChild(c, p).entries, Nest(p, [c.name])) == if c.node.children == [] then 1 else 0
  {
    var q := p + c.name + [Separator];
    DirNameBelow(p, c.name, []);
    assert Nest(p, [c.name]) == q;
    if c.node.children != [] {
      ChildrenEntriesBelow(c.node.children, q);
      assert q !in Names(WalkChildren(c.node.children, q).entries);
    }
  }

  /** An intact tree gives one entry per regular file and childless directory. */
  lemma {:induction false} EntryPerLeaf(c: Child, p: string)
    requires Intact(c.node)
    ensures |WalkChild(c, p).entries| == LeafCount(c.node)
    decreases c
  {
    match c.node
    case File(_, _) =>
    case Dir(cs, _) =>
      if cs != [] {
        EntriesPerLeaves(cs, p + c.name + [Separator]);
      }
  }

  lemma {:induction false} EntriesPerLeaves(cs: seq<Child>, p: string)
    requires forall i :: 0 <= i < |cs| ==> Intact(cs[i].node)
    ensures |WalkChildren(cs, p).entries| == LeafCountAll(cs)
    decreases cs
  {
    if cs != [] {
      var init, last := cs[..|cs| - 1], cs[|cs| - 1];
      assert forall i :: 0 <= i < |init| ==> init[i] == cs[i];
      EntriesPerLeaves(init, p);
      forall i | 0 <= i < |init| ensures ReachableReadable(init[i].node) {
        IntactReachable(init[i].node);
      }
      WalkChildrenOk(init, p);
      EntryPerLeaf(last, p);
    }
  }

  // ---------------------------------------------------------------------
  // Order: depth first, in listing order

  /** The children's walks concatenated in listing order. */
  function InListingOrder(cs: seq<Child>, p: string): seq<Entry>
    decreases cs
  {
    if cs == [] then [] else WalkChild(cs[0], p).entries + InListingOrder(cs[1..], p)
  }

  lemma {:induction false} InListingOrderSnoc(cs: seq<Child>, p: string)
    requires cs != []
    ensures InListingOrder(cs, p) == InListingOrder(cs[..|cs| - 1], p) + WalkChild(cs[|cs| - 1], p).entries
    decreases cs
  {
    if |cs| > 1 {
      InListingOrderSnoc(cs[1..], p);
      assert cs[1..][..|cs[1..]| - 1] == cs[..|cs| - 1][1..];
    }
  }

  /**
   When every reachable file opens, a directory's entries are those of its
   children, one child after the other in listing order, with nothing
   sorted and nothing in between.
   */
  lemma {:induction false} ListingOrder(cs: seq<Child>, p: string)
    requires forall i :: 0 <= i < |cs| ==> ReachableReadable(cs[i].node)
    ensures WalkChildren(cs, p) == Walked(InListingOrder(cs, p), true)
    decreases cs
  {
    if cs != [] {
      var init := cs[..|cs| - 1];
      assert forall i :: 0 <= i < |init| ==> init[i] == cs[i];
      ListingOrder(init, p);
      InListingOrderSnoc(cs, p);
      WalkOk(cs[|cs| - 1].node, cs[|cs| - 1].name, ChildPrefix(p, cs[|cs| - 1]));
    }
  }

  // ---------------------------------------------------------------------
  // An exception ends the walk

  /** The loop of compressDir, one child further. */
  lemma WalkChildrenNext(cs: seq<Child>, p: string, i: nat)
    requires i < |cs|
    ensures WalkChildren(cs[..i + 1], p) == Then(WalkChildren(cs[..i], p), WalkChild(cs[i], p))
  {
    assert cs[..i + 1][..i] == cs[..i];
  }

  /** Once a child's walk throws, the later children are not visited. */
  lemma {:induction false} FailureStops(cs: seq<Child>, p: string, j: nat)
    requires j <= |cs|
    requires !WalkChildren(cs[..j], p).ok
    ensures WalkChildren(cs, p) == WalkChildren(cs[..j], p)
    decreases |cs| - j
  {
    if j < |cs| {
      assert cs[..j + 1][..j] == cs[..j];
      FailureStops(cs, p, j + 1);
    } else {
      assert cs[..j] == cs;
    }
  }
}

=== FILE: wrappers.dfy ===
/** The optional value used across the model. */
module Wrappers {

  /** `None` stands for a Java `null` reference or an absent value. */
  datatype Option<+T> = None | Some(value: T)
}
